=== FILE: README.md ===
# Dropzone Delta: a Dafny model of the upload and task core

This project models the logic behind a single-page file-upload app with a
task list. The app is written in React, and the model covers:

- how a dropped file is accepted or rejected (the 100 MB size limit);
- how a file name is classified into one of eight type labels;
- how share links are built;
- the simulated chunked upload, with its progress events and its in-memory
  upload history (the `Id` of each record, the cap of 50 records, deletion,
  clearing, listing newest first);
- the home page's list of active uploads;
- how the task service shapes outgoing records and reads the record store's
  replies;
- the search and selection handlers of the task list;
- loading and submitting the task form.

Every operation is a pure function of its inputs. Anything the app gets from
outside is passed in as a parameter:

- the clock readings of the upload loop;
- generated ids;
- the user's answer to a confirmation dialog;
- the replies of the record-store SDK.

The modules follow the source files:

| module | file | models |
|---|---|---|
| `Wrappers` | `wrappers.dfy` | `Option` and `Outcome`, the latter either a returned value or a raised error message |
| `Seqs` | `seqs.dfy` | `Array.prototype.filter` and facts about it, duplicate-freedom, sums |
| `Strings` | `strings.dfy` | ASCII `toLowerCase`, `includes`, `trim`, `join` |
| `FileUtils` | `file_utils.dfy` | `src/utils/fileUtils.js` |
| `UploadService` | `upload_service.dfy` | `src/services/api/uploadService.js` |
| `TaskService` | `task_service.dfy` | `src/services/api/taskService.js` |
| `TaskList` | `task_list.dfy` | handlers of `src/components/pages/TaskList.jsx` |
| `HomePage` | `home_page.dfy` | the active-upload list of `src/components/pages/HomePage.jsx` |
| `DropZone` | `drop_zone.dfy` | `src/components/organisms/DropZone.jsx` |
| `TaskForm` | `task_form.dfy` | `src/components/pages/TaskForm.jsx` |

The chunked upload is the centre of the model. `UploadService.SimulateUpload`
runs the whole chain of `upload` calls for a file of `total` bytes and proves
the following:

- there are exactly `StepCount(total)` callbacks;
- chunk i is the number of bytes the (i+1)-th run of `upload` adds, and the chunks add up to the file size;
- the i-th callback reports `min((i+1)·chunk, total)` bytes;
- only the last callback reaches the file size and reports 100%.

## Model

| member | source | states |
|---|---|---|
| FileUtils.ValidateFile | src/utils/fileUtils.js:51-63 | A file is valid exactly when its size is at most 100·1024·1024 bytes, which is exactly when the error list is empty. An invalid file carries the single message "File size exceeds 100MB limit". |
| FileUtils.SplitOnDot | src/utils/fileUtils.js:22 | `split('.')` yields at least one piece and no piece contains a dot. Joining the pieces with dots gives back the name. The last piece is the text after the last dot. |
| FileUtils.AfterLastDot | src/utils/fileUtils.js:22 | The result is a dot-free suffix of the name. Either the whole name is dot-free, or the result is preceded by a dot. |
| FileUtils.ExtensionIsAfterLastDot | src/utils/fileUtils.js:22 | The extension is the lower-cased text after the last dot, or the whole lower-cased name when there is no dot. |
| FileUtils.AfterLastDotLower | src/utils/fileUtils.js:22 | Lower-casing the name and then taking the last segment is the same as lower-casing the last segment. |
| FileUtils.Classify | src/utils/fileUtils.js:24-40 | If an extension is given a category other than "file", it is in that category's list. It gets "file" exactly when it is in no list. |
| FileUtils.ClassifyListed | src/utils/fileUtils.js:24-40 | An extension in a category's list is always given that category, because no earlier test in the `if` chain claims it. |
| FileUtils.ExtensionsDisjoint | src/utils/fileUtils.js:24-30 | No extension appears in two of the seven lists. |
| FileUtils.GetFileType | src/utils/fileUtils.js:21-41 | The result is one of the eight type labels. It is "file" exactly when the extension is in no list. |
| FileUtils.GetFileTypeIgnoresCase | src/utils/fileUtils.js:22 | Two names that differ only in letter case get the same type. |
| FileUtils.GetFileTypeListed | src/utils/fileUtils.js:21-41 | A name whose extension is in a category's list gets that category's label. |
| FileUtils.GetFileTypeBareName | src/utils/fileUtils.js:22-40 | A name without a dot is classified as a whole: "zip" is an archive. |
| FileUtils.GetFileTypeUpperCase | src/utils/fileUtils.js:22-40 | "Report.PDF" is a document. |
| FileUtils.GetFileTypeLastDot | src/utils/fileUtils.js:22-40 | Only the last dot counts: "backup.tar.gz" is an archive. |
| FileUtils.GetFileTypeTrailingDot | src/utils/fileUtils.js:22-40 | A trailing dot gives the empty extension, so "notes." is a plain file. |
| FileUtils.ShareLink | src/utils/fileUtils.js:47-49 | The link starts with the share origin, and what follows the origin is exactly the file id. |
| FileUtils.ParseShareLink | src/utils/fileUtils.js:47-49 | Any id read back from a link rebuilds that exact link. |
| FileUtils.ShareLinkRoundTrip | src/utils/fileUtils.js:47-49 | Parsing a built link gives back its id. A link parses to an id exactly when it is the link built from that id. |
| FileUtils.ShareLinkInjective | src/utils/fileUtils.js:47-49 | Different ids give different links. |
| FileUtils.ShareLinkExample | src/utils/fileUtils.js:47-49 | The id "abc123" gives the link "https://dropzone.app/share/abc123". |
| UploadService.ChunkSize | src/services/api/uploadService.js:17 | The chunk is at least 1 KiB and at least a hundredth of the file, and it is one of the two. |
| UploadService.ChunksBeforeEnd | src/services/api/uploadService.js:17-38 | After `k` full chunks the file is unfinished exactly when `k` is below the chunk count. The chunk count is 100 for files of 100 KiB or more, and one per started KiB below that. |
| UploadService.UploadedAfterMonotone | src/services/api/uploadService.js:23-25 | The byte counter never goes down as chunks are sent. |
| UploadService.Percent | src/services/api/uploadService.js:26-30 | Below the file size, progress is exactly `uploaded / total · 100`. It is 100 exactly when the counter has reached the file size, never exceeds 100, and is non-negative. |
| UploadService.Speed | src/services/api/uploadService.js:22-27 | Speed is 0 when no time has elapsed. Otherwise speed times elapsed milliseconds equals bytes times 1000. |
| UploadService.Step | src/services/api/uploadService.js:20-36 | One chunk moves a positive number of bytes, at most one chunk, and never passes the file size. Only a final chunk may be short. The callback reports the new counter, the file size, the progress and the speed. |
| UploadService.StepFromUploadedAfter | src/services/api/uploadService.js:23-38 | A chunk sent after `k` full chunks leaves the counter at its value after `k+1` chunks, and that counter is below the file size exactly when more chunks follow. |
| UploadService.SimulateUpload | src/services/api/uploadService.js:12-67 | The upload makes exactly `StepCount(total)` callbacks, and its chunk sizes sum to the file size. Chunk i is the number of bytes the (i+1)-th run of `upload` adds to the counter. The i-th callback reports the counter after i+1 chunks, the matching percentage, and the speed of chunk i over the time between clock readings i and i+1. Every callback before the last is below the file size. The last one reports the file size and 100%. |
| UploadService.Advance | src/services/api/uploadService.js:20-36 | One run of the `upload` closure after `k` chunks, while the file is unfinished, leaves the state after `k+1` chunks: the counter, the last clock reading, the callbacks and the chunks all match that state. |
| UploadService.ReportedSizesMonotone | src/services/api/uploadService.js:25-34 | The reported byte counts stay between 0 and the file size and never decrease. |
| UploadService.StepCountExamples | src/services/api/uploadService.js:17 | A 500,000-byte file takes 100 chunks of 5,000 bytes. A 500-byte file takes one 1 KiB chunk. |
| UploadService.MaxId | src/services/api/uploadService.js:41 | On a non-empty history the result is an `Id` of the history and no `Id` is larger. |
| UploadService.JsMax | src/services/api/uploadService.js:41 | `Math.max` of the ids is -Infinity exactly when every argument is -Infinity, which includes the case of no arguments. Otherwise it is the largest argument. |
| UploadService.NextIdAsWritten | src/services/api/uploadService.js:41 | The `Id` as the code computes it is -Infinity exactly when there is no finite `Id`. Otherwise it exceeds every `Id`. |
| UploadService.NextIdAsWrittenRepeats | src/services/api/uploadService.js:41 | On an empty history the code gives the `Id` -Infinity, and with that record in the history it gives -Infinity again. |
| UploadService.NextId | src/services/api/uploadService.js:41 | The corrected `Id` exceeds every `Id` in the history. It is 1 on an empty history and otherwise one more than an existing `Id`. |
| UploadService.NextIdAgreesWhenNonEmpty | src/services/api/uploadService.js:41 | On a non-empty history the corrected `Id` is the one the code computes. |
| UploadService.Push | src/services/api/uploadService.js:50-55 | After `unshift` and the cap, the new record comes first and is followed by the old records in order. The length is the old length plus one, capped at 50. |
| UploadService.Complete | src/services/api/uploadService.js:38-57 | The record carries the file's name, size and type, the status "completed", the share link of the file id and the current time. Its `Id` is fresh, with the `Id` rules of `NextId`. The new history is that record pushed onto the old one. |
| UploadService.PushKeepsIdsUnique | src/services/api/uploadService.js:50-55 | Pushing a record with a new `Id` keeps the `Id`s unique. |
| UploadService.PushKeepsNewestFirst | src/services/api/uploadService.js:50-55 | Pushing a record no older than the others keeps the list newest first. |
| UploadService.CompleteKeepsIdsUnique | src/services/api/uploadService.js:40-55 | Completing an upload keeps every `Id` in the history unique. |
| UploadService.CompleteKeepsNewestFirst | src/services/api/uploadService.js:40-55 | Completing an upload at a time no earlier than any recorded upload keeps the history newest first. |
| UploadService.InsertByDate | src/services/api/uploadService.js:9 | Inserting a record into a newest-first list keeps it newest first and adds exactly that record. |
| UploadService.GetUploadHistory | src/services/api/uploadService.js:7-10 | The listing is newest first and is a permutation of the store. |
| UploadService.GetUploadHistorySorted | src/services/api/uploadService.js:9 | A store that is already newest first is listed unchanged. |
| UploadService.DeleteUpload | src/services/api/uploadService.js:70-74 | Exactly the records with this `Id` disappear. Every other record stays as often as it occurred, and the survivors keep their order. Deleting an absent `Id` changes nothing. |
| UploadService.DeleteUploadKeepsInvariants | src/services/api/uploadService.js:72 | Deletion keeps the history newest first and its `Id`s unique. |
| UploadService.SubsequenceKeepsNewestFirst | src/services/api/uploadService.js:72 | Leaving records out of a newest-first history, without reordering the rest, keeps it newest first. |
| UploadService.SubsequenceKeepsIdsUnique | src/services/api/uploadService.js:72 | Leaving records out of a history with unique `Id`s keeps them unique. |
| UploadService.ClearHistory | src/services/api/uploadService.js:76-80 | Clearing leaves an empty store. |
| UploadService.ClearHistoryEmptiesStore | src/services/api/uploadService.js:70-80 | After clearing, the listing is empty and deleting any `Id` leaves it empty. |
| UploadService.ClearThenTwoUploads | src/services/api/uploadService.js:41 | With the corrected `Id`, the first two uploads after a clear get the `Id`s 1 and 2 and the history keeps unique `Id`s. |
| TaskService.StripNulls | src/services/api/taskService.js:114-119 | Removing null fields keeps every non-null field and every protected field with its value, and drops every other null field. |
| TaskService.StrippedDraftShaped | src/services/api/taskService.js:106-119 | Any record that extends the draft keeps the draft's shape once its nulls are removed. |
| TaskService.CreateRecord | src/services/api/taskService.js:106-119 | The record sent by `createTask` has the following properties. `Name` falls back from the given name to the title to "New Task". `title_c` and the attachment are present exactly when given. Description and tags default to the empty string. Only the five known fields occur and no field is null. |
| TaskService.UpdateRecord | src/services/api/taskService.js:172-186 | The record sent by `updateTask` has the same shape with "Updated Task" as the default name, plus `Id` set to the task's id. No field is null. |
| TaskService.StripNullsKeepsProtected | src/services/api/taskService.js:114-119 | A protected field survives null removal unchanged. |
| TaskService.GetAllTasks | src/services/api/taskService.js:37-46 | A thrown call or an unsuccessful reply raises its message. Otherwise the data comes back, or the empty list when there is none. |
| TaskService.GetTaskById | src/services/api/taskService.js:82-94 | The call never raises. It returns the task exactly when the call returned data, and nothing otherwise. |
| TaskService.SaveOutcome | src/services/api/taskService.js:127-152 | A thrown call or an unsuccessful reply raises its message. After a successful reply, the first successful entry's data is returned. The call raises the given message exactly when there are results and none of them succeeded. |
| TaskService.FirstSuccessExists | src/services/api/taskService.js:133-134 | A successful entry implies a first successful one. |
| TaskService.CreateTask | src/services/api/taskService.js:127-152 | A successful reply either returns data or raises "Failed to create task". |
| TaskService.UpdateTask | src/services/api/taskService.js:194-219 | A successful reply either returns data or raises "Failed to update task". |
| TaskService.DeleteTask | src/services/api/taskService.js:244-263 | The delete returns true exactly when the reply succeeded and none of its entries failed. Otherwise it raises the thrown or reply message, or "Failed to delete task". |
| TaskService.DeleteTasks | src/services/api/taskService.js:288-307 | Only a thrown call or an unsuccessful reply raises. With no results the answer is false. Otherwise the answer is true exactly when the number of successful entries equals the number of ids, whatever the number of entries. With one result per id, that means every entry succeeded. |
| TaskService.DeleteTasksSurplusResults | src/services/api/taskService.js:299-304 | Only counts are compared: one id with a successful and a failed entry answers true, and one id with two successful entries answers false. |
| TaskService.DeleteTasksPartialFailure | src/services/api/taskService.js:288-307 | One failed entry among the results makes the bulk delete answer false without raising. |
| Seqs.FilterSplitsLength | src/services/api/taskService.js:133-134 | The successful and the failed entries together account for every result. |
| Seqs.FilterKeepsOrder | src/services/api/uploadService.js:72 | `filter` keeps the surviving elements in their original order. |
| Seqs.FilterCounts | src/services/api/uploadService.js:72 | `filter` keeps each passing element exactly as often as it occurs, and no failing element. |
| Seqs.FilterLengthCountsPositions | src/services/api/taskService.js:293-304 | The length of a `filter` result is the number of positions whose element passes, which is the count the bulk delete compares. |
| Strings.Contains | src/components/pages/TaskList.jsx:107-109 | `includes` holds exactly when the needle occurs at some position. |
| Strings.Trim | src/components/pages/TaskForm.jsx:80-91 | `trim` removes a run of blanks from each end and keeps what lies between. The result neither starts nor ends with a blank. |
| Strings.TrimEmptyIffBlank | src/components/pages/TaskForm.jsx:80 | A string trims to the empty string exactly when it is all blanks. |
| Strings.TrimIdempotent | src/components/pages/TaskForm.jsx:89-91 | Trimming twice is trimming once. |
| TaskList.FilteredTasks | src/components/pages/TaskList.jsx:104-111 | A task is shown exactly when the lower-cased query occurs in its lower-cased title, description or tags. Shown tasks keep their order and their multiplicity. |
| TaskList.EmptyQueryKeepsFieldedTasks | src/components/pages/TaskList.jsx:104-111 | The empty query shows exactly the tasks that have at least one searchable field. |
| TaskList.EmptyQueryKeepsAll | src/components/pages/TaskList.jsx:104-111 | When every task has a title, the empty query shows the list unchanged. |
| TaskList.ToggleSelection | src/components/pages/TaskList.jsx:88-94 | Toggling flips this id's membership and leaves every other id alone. A new id is appended. Deselecting keeps the other ids in their order and with their multiplicity, and that order reaches the bulk delete. Duplicate-freedom is kept. |
| TaskList.ToggleTwiceRestores | src/components/pages/TaskList.jsx:88-94 | Selecting an unselected task and then deselecting it restores the selection. |
| TaskList.SelectAll | src/components/pages/TaskList.jsx:96-102 | Select-all clears the selection when its length equals the number of shown tasks. Otherwise it selects the shown tasks' ids. |
| TaskList.SelectAllTwiceClears | src/components/pages/TaskList.jsx:96-102 | Select-all selects every shown task and nothing else, and pressing it again clears the selection. |
| TaskList.SelectAllComparesLengthsOnly | src/components/pages/TaskList.jsx:96-102 | With one other task selected and one task shown, select-all clears the selection instead of selecting the shown task. |
| TaskList.LoadTasks | src/components/pages/TaskList.jsx:28-41 | A fetch takes the fetched list and clears the error. A failure shows an empty list and a non-empty error: the raised message when there is one, otherwise "Failed to load tasks". |
| TaskList.DeleteOne | src/components/pages/TaskList.jsx:43-56 | A declined or failed delete changes nothing. A confirmed, successful one removes exactly the tasks with this id and keeps the others, in order and as often as they occurred. |
| TaskList.DeleteOneAfterSuccess | src/components/pages/TaskList.jsx:43-56 | When the service reports no failed entry, no task with this id remains, every other task stays in order, and the selection is untouched. |
| TaskList.DeleteOneAfterFailedEntry | src/components/pages/TaskList.jsx:43-56 | When the service reports a failed entry, it raises and the page is unchanged. |
| TaskList.DeleteOneTwice | src/components/pages/TaskList.jsx:50 | Deleting the same task twice is deleting it once. |
| TaskList.BulkDelete | src/components/pages/TaskList.jsx:58-86 | An empty selection or a declined confirmation changes nothing. Otherwise the selection is cleared. A `true` answer drops exactly the selected tasks locally and keeps the others, in order and as often as they occurred. A `false` answer or an error reloads the list. |
| TaskList.BulkDeleteAfterFullSuccess | src/components/pages/TaskList.jsx:58-71 | When the service answers with one successful entry per selected id, no selected task remains, every other task stays in order, the error is untouched, and the selection is cleared. |
| TaskList.BulkDeleteAfterPartialFailure | src/components/pages/TaskList.jsx:67-77 | When one entry of the service's answer failed, the list is whatever the reload brings and the selection is cleared. |
| HomePage.NewUpload | src/components/pages/HomePage.jsx:16-25 | A new entry carries the file's name and size, with nothing uploaded yet and the status "uploading". |
| HomePage.StartUploads | src/components/pages/HomePage.jsx:16-28 | The existing entries stay in front and one fresh entry per file follows, in order. |
| HomePage.ApplyProgress | src/components/pages/HomePage.jsx:35-46 | Only the entry with this id takes the reported progress, byte count and speed. Every other entry and field is unchanged. |
| HomePage.ApplyAll | src/components/pages/HomePage.jsx:35-46 | Any chain of progress callbacks keeps every entry's id and leaves other ids' entries alone. The matching entry keeps its name, sizes and status, and after a non-empty chain it carries the last callback's progress, byte count and speed. An empty chain changes nothing. |
| HomePage.OnUploaded | src/components/pages/HomePage.jsx:49-63 | Completion marks only this id's entry completed at 100% and bumps the history refresh by one. |
| HomePage.RemoveUpload | src/components/pages/HomePage.jsx:58-68 | Removal drops exactly the entries with this id. The other entries stay, in order and as often as they occurred. |
| HomePage.DropZoneDisabled | src/components/pages/HomePage.jsx:72 | The drop zone is disabled exactly when some upload is active. |
| HomePage.UploadLifecycle | src/components/pages/HomePage.jsx:15-69 | An upload with a new id is added, then goes through any progress callbacks, completes or fails, and is removed. This leaves the list as it was, and only a completion bumps the refresh counter. |
| DropZone.RejectionMessageText | src/components/organisms/DropZone.jsx:49-53 | A rejected file's toast is its name, a colon and the size-limit message. |
| DropZone.Partition | src/components/organisms/DropZone.jsx:45-55 | The loop collects exactly the valid files in order, and one message per invalid file in order. |
| DropZone.HandleFiles | src/components/organisms/DropZone.jsx:44-66 | The valid files are passed on exactly when there are some. One toast is shown per invalid file. Accepted files and toasts together account for every file. |
| DropZone.HandleDrop | src/components/organisms/DropZone.jsx:26-34 | A disabled zone ignores the drop. Otherwise the drop is handled like picked files. |
| DropZone.OpenFileDialog | src/components/organisms/DropZone.jsx:68-72 | The dialog opens only when the zone is enabled, and always when the input is also mounted. |
| TaskForm.LoadTask | src/components/pages/TaskForm.jsx:36-57 | A missing task fails with "Task not found". Otherwise missing text fields load as empty, and the attachment is selected exactly when present with a non-zero id. |
| TaskForm.Submit | src/components/pages/TaskForm.jsx:77-103 | A blank title is refused with "Please enter a task title". Otherwise the trimmed fields are sent by an update when the route carries an id, and by a create when it does not. |
| TaskForm.AfterSave | src/components/pages/TaskForm.jsx:95-106 | An error stays on the form. An update goes to the task. A create goes to the new task, or to the list when no task came back. |
| TaskForm.SaveErrorMessage | src/components/pages/TaskForm.jsx:106 | The error toast is the raised message, or "Failed to update task" / "Failed to create task" when that is empty. It is never empty. |
| TaskForm.CreatedTaskNamedByTitle | src/components/pages/TaskForm.jsx:88-100 | A new task's record is named after its trimmed title. |
| TaskForm.EditUnchangedResubmits | src/components/pages/TaskForm.jsx:36-98 | Loading a task and saving it unchanged sends an update of the same task with trimmed fields, named after its title. |

## Findings

| source | as written | input that shows it | evidently intended | confidence | as-written member | corrected member |
|---|---|---|---|---|---|---|
| src/services/api/uploadService.js:41 | `Math.max(...uploadHistory.map(u => u.Id)) + 1` is `-Infinity` on an empty history, so every upload after `clearHistory` (lines 76-80) gets the `Id` `-Infinity` | `clearHistory()` followed by two uploads: both records get `Id` `-Infinity`, so `deleteUpload` can no longer tell them apart | the first `Id` is 1 on an empty history, then one more than the largest `Id` | not executed | UploadService.NextIdAsWrittenRepeats | UploadService.ClearThenTwoUploads |

`UploadService.NextId` is the corrected definition and `UploadService.Complete`
uses it. `UploadService.NextIdAgreesWhenNonEmpty` shows that it agrees with
the code on every non-empty history.

## Left out

- `formatFileSize` and `formatUploadSpeed` (src/utils/fileUtils.js:1-19): display-only formatting with floating-point logarithms and `toFixed`.
- `generateFileId` (src/utils/fileUtils.js:43) reads the clock and `Math.random`. Generated ids are parameters instead.
- `copyToClipboard` (src/utils/fileUtils.js:65) is a browser API call.
- The timers of `uploadFile` (the 100 ms start, the random 25-75 ms delays) and of the service methods are left out. The clock readings are a parameter of `SimulateUpload`.
- JavaScript number rounding: byte counts, progress and speed are exact reals in the model.
- UploadService.SimulateUpload requires a non-empty file. A zero-byte file makes the code divide 0 by 0, and it reports a NaN progress that exact reals cannot express.
- The interleaving of several concurrent uploads on the home page is left out. Each upload chain is modelled on its own.
- The record-store SDK client, its construction from environment variables, and the field lists of the fetch calls are left out. Their replies are parameters.
- Rendering and the loading and saving flags are left out. `window.confirm` is a boolean parameter.
- Of the routing calls, only the task form's `navigate` after a save is modelled (TaskForm.AfterSave). Every other `navigate` is left out: the form's cancel, the task list's links and the task detail page's return to the list.
- Of the toasts, only these are modelled: the drop zone's rejection messages (DropZone.HandleFiles), the task form's blank-title refusal "Please enter a task title" (TaskForm.Submit) and its save-error text (TaskForm.SaveErrorMessage). The success and error toasts of the task list (src/components/pages/TaskList.jsx:51-80), the home page (src/components/pages/HomePage.jsx:55-66), the form's success toasts and the upload history panel only display a message, and are left out.
- `toLowerCase` and `trim` are modelled on ASCII only, with no Unicode case mapping or Unicode blanks.
- `uploadedAt` ISO timestamps are integer milliseconds. Ordering by `new Date(...)` is ordering by those integers.
- UploadService.GetUploadHistory: stability of `sort` among records with equal timestamps is not stated.
- UploadService.ClearHistory states only that the store is empty. The `true` it resolves with carries no information.
- HomePage.StartUploads requires one generated id per file, since the ids are a parameter rather than generated inside.
- The attachment select delivers a string that the form hands on unparsed. The model keeps attachments as integer ids.
- The initial history comes from `src/services/mockData/uploadHistory.json`, which is not part of this model. Any starting history is allowed.
- The delete handler of `TaskDetail.jsx` (src/components/pages/TaskDetail.jsx:45-57) is left out. It asks for confirmation, calls `deleteTask` (modelled as TaskService.DeleteTask), shows a toast and navigates to the task list; the page holds no list to update.
- The handlers of `UploadHistory.jsx` (src/components/organisms/UploadHistory.jsx:37-55) are left out. The clear handler calls `clearHistory` (modelled as UploadService.ClearHistory) and then empties the panel's own copy of the list.
- The panel's delete handler is left out, and it does not mirror the store. The button passes a lowercase `upload.id` (src/components/organisms/UploadHistory.jsx:141). The records that `uploadFile` builds carry only `Id` (src/services/api/uploadService.js:41), so the argument is `undefined`. The store's filter `upload.Id !== id` (src/services/api/uploadService.js:72) then removes nothing. The panel's own filter `item.id !== id` (src/components/organisms/UploadHistory.jsx:40) compares `undefined` with `undefined` and drops every entry from the panel's list. The field names of the initial history file are not part of this model.
- `ActiveUploads.jsx` and the presentational components only display state and are left out.
- `clearHistory` only empties the in-memory list and always resolves `true`. The model follows that code.
- An empty search query keeps only tasks with at least one present searchable field. The model follows that code.
- `getTaskById` ignores the reply's `success` flag. The model follows that code.
- The route id of the task form is a string. `updateTask` passes it through `parseInt` (src/services/api/taskService.js:173), and the form navigates to the raw string (src/components/pages/TaskForm.jsx:98). The model takes the route id as an already-parsed integer, so ids that are not decimal integers are not modelled.

=== FILE: drop_zone.dfy ===
/** File acceptance in the drop zone (src/components/organisms/DropZone.jsx):
    splitting a batch into accepted files and rejection messages, and the
    `disabled` guards. Toasts are modelled as the list of messages shown. */
module DropZone {
  import opened Wrappers
  import opened Seqs
  import opened Strings
  import opened FileUtils

  predicate Accepted(f: File) {
    ValidateFile(f).isValid
  }

  predicate Refused(f: File) {
    !ValidateFile(f).isValid
  }

  /** `` `${file.name}: ${validation.errors.join(", ")}` ``. */
  function RejectionMessage(f: File): string {
    f.name + ": " + Join(ValidateFile(f).errors, ", ")
  }

  /** A rejected file's message names the file and the size limit. */
  lemma RejectionMessageText(f: File)
    requires Refused(f)
    ensures RejectionMessage(f) == f.name + ": " + SizeLimitMessage
  {
    assert ValidateFile(f).errors == [SizeLimitMessage];
  }

  /** The messages for a list of rejected files, in order. */
  function Messages(files: seq<File>): (ms: seq<string>)
    ensures |ms| == |files|
    ensures forall i :: 0 <= i < |files| ==> ms[i] == RejectionMessage(files[i])
  {
    seq(|files|, i requires 0 <= i < |files| => RejectionMessage(files[i]))
  }

  lemma MessagesAppend(a: seq<File>, b: seq<File>)
    ensures Messages(a + b) == Messages(a) + Messages(b)
  {
  }

  /** Sorting one more file extends exactly one of the two lists. */
  lemma PartitionStep(files: seq<File>, i: nat)
    requires i < |files|
    ensures Filter(files[..i + 1], Accepted) ==
      Filter(files[..i], Accepted) + (if Accepted(files[i]) then [files[i]] else [])
    ensures Messages(Filter(files[..i + 1], Refused)) ==
      Messages(Filter(files[..i], Refused)) + (if Accepted(files[i]) then [] else [RejectionMessage(files[i])])
  {
    assert files[..i + 1] == files[..i] + [files[i]];
    FilterSnoc(files[..i], files[i], Accepted);
    RefusedStep(files[..i], files[i]);
  }

  lemma RefusedStep(prefix: seq<File>, f: File)
    ensures Messages(Filter(prefix + [f], Refused)) ==
      Messages(Filter(prefix, Refused)) + (if Accepted(f) then [] else [RejectionMessage(f)])
  {
    FilterSnoc(prefix, f, Refused);
    MessagesAppend(Filter(prefix, Refused), if Refused(f) then [f] else []);
    MessagesOfOne(f);
  }

  lemma MessagesOfOne(f: File)
    ensures Messages(if Refused(f) then [f] else []) == (if Accepted(f) then [] else [RejectionMessage(f)])
  {
  }

  /** What `handleFiles` hands on: the argument of the one `onFilesSelected`
      call, if there is one, and the error toasts. */
  datatype Dispatch = Dispatch(selected: Option<seq<File>>, toasts: seq<string>)

  /** The dispatch `handleFiles` makes for `files`: every file lands either
      among the accepted files (kept in input order) or as one message, and
      `onFilesSelected` is called once exactly when something was accepted. */
  ghost predicate DispatchOf(files: seq<File>, d: Dispatch) {
    && (d.selected.Some? <==> exists f :: f in files && Accepted(f))
    && (d.selected.Some? ==> d.selected.value == Filter(files, Accepted))
    && d.toasts == Messages(Filter(files, Refused))
  }

  /** The `forEach` of `handleFiles`: one pass over the files, sorting each
      into the valid list or the error list. */
  method Partition(files: seq<File>) returns (valid: seq<File>, errors: seq<string>)
    ensures valid == Filter(files, Accepted)
    ensures errors == Messages(Filter(files, Refused))
  {
    valid, errors := [], [];
    for i := 0 to |files|
      invariant valid == Filter(files[..i], Accepted)
      invariant errors == Messages(Filter(files[..i], Refused))
    {
      var f := files[i];
      PartitionStep(files, i);
      valid := valid + (if Accepted(f) then [f] else []);
      errors := errors + (if Accepted(f) then [] else [RejectionMessage(f)]);
    }
    assert files[..|files|] == files;
  }

  /** Something was accepted exactly when the valid list is non-empty. */
  lemma AcceptedSomething(files: seq<File>)
    ensures |Filter(files, Accepted)| > 0 <==> exists f :: f in files && Accepted(f)
  {
    if exists f :: f in files && Accepted(f) {
      var f :| f in files && Accepted(f);
      assert f in Filter(files, Accepted);
    }
  }

  /** `handleFiles`: partition, show one toast per rejected file, then call
      `onFilesSelected` once if anything was accepted. */
  method HandleFiles(files: seq<File>) returns (d: Dispatch)
    ensures DispatchOf(files, d)
    ensures |Filter(files, Accepted)| + |d.toasts| == |files|
  {
    var valid, errors := Partition(files);
    FilterSplitsLength(files, Accepted, Refused);
    AcceptedSomething(files);
    d := Dispatch(if |valid| > 0 then Some(valid) else None, errors);
  }

  /** `handleDrop`: ignored while disabled, otherwise `handleFiles`. */
  method HandleDrop(disabled: bool, files: seq<File>) returns (d: Dispatch)
    ensures disabled ==> d == Dispatch(None, [])
    ensures !disabled ==> DispatchOf(files, d)
  {
    if disabled {
      d := Dispatch(None, []);
    } else {
      d := HandleFiles(files);
    }
  }

  /** `openFileDialog`: the file input is clicked only when the zone is
      enabled and the input is mounted. */
  function OpenFileDialog(disabled: bool, inputMounted: bool): (opens: bool)
    ensures opens ==> !disabled
    ensures !disabled && inputMounted ==> opens
  {
    !disabled && inputMounted
  }
}

=== FILE: file_utils.dfy ===
/** File rules: the size ceiling, extension-based classification and the
    share-link format (src/utils/fileUtils.js). */
module FileUtils {
  import opened Wrappers
  import opened Strings

  /** A browser `File` as the core sees it; `size` is in bytes. */
  datatype File = File(name: string, size: nat, mimeType: string)

  /** 100 MiB, the largest accepted file. */
  const MaxFileSize: nat := 100 * 1024 * 1024

  const SizeLimitMessage: string := "File size exceeds 100MB limit"

  datatype Validation = Validation(isValid: bool, errors: seq<string>)

  /** `validateFile`: one size rule, one possible message. */
  function ValidateFile(file: File): (v: Validation)
    ensures v.isValid <==> file.size <= 104857600
    ensures v.isValid <==> |v.errors| == 0
    ensures !v.isValid ==> v.errors == [SizeLimitMessage]
  {
    var errors := if file.size > MaxFileSize then [SizeLimitMessage] else [];
    Validation(|errors| == 0, errors)
  }

  // ---------------------------------------------------------------------
  // Extension and classification
  // ---------------------------------------------------------------------

  /** `s.split(".")`: the maximal dot-free pieces; joining them back with
      "." gives `s`, and the last piece is what follows the last dot. */
  function SplitOnDot(s: string): (parts: seq<string>)
    ensures SplitsInto(s, parts)
    decreases |s|
  {
    if |s| == 0 then [""]
    else
      var rest := SplitOnDot(s[1..]);
      if s[0] == '.' then
        SplitAfterDot(s, rest);
        [""] + rest
      else
        SplitAfterChar(s, rest);
        [[s[0]] + rest[0]] + rest[1..]
  }

  /** `parts` are the maximal dot-free pieces of `s`: at least one, joined
      back with "." they give `s`, and the last is what follows the last dot. */
  ghost predicate SplitsInto(s: string, parts: seq<string>) {
    && |parts| >= 1
    && Join(parts, ".") == s
    && (forall i :: 0 <= i < |parts| ==> '.' !in parts[i])
    && IsLastSegment(s, parts[|parts| - 1])
  }

  /** A leading dot opens an empty first piece. */
  lemma SplitAfterDot(s: string, rest: seq<string>)
    requires |s| > 0 && s[0] == '.' && SplitsInto(s[1..], rest)
    ensures SplitsInto(s, [""] + rest)
  {
    assert s == "" + "." + s[1..];
  }

  /** Any other first character joins the first piece of the rest. */
  lemma SplitAfterChar(s: string, rest: seq<string>)
    requires |s| > 0 && s[0] != '.' && SplitsInto(s[1..], rest)
    ensures SplitsInto(s, [[s[0]] + rest[0]] + rest[1..])
  {
    var parts := [[s[0]] + rest[0]] + rest[1..];
    if |rest| == 1 {
      assert rest[0] == s[1..];
    } else {
      assert Join(parts, ".") == [s[0]] + Join(rest, ".");
    }
  }

  /** `r` is the text after the last '.' of `s`, or all of `s` when it has none. */
  ghost predicate IsLastSegment(s: string, r: string) {
    && |r| <= |s|
    && r == s[|s| - |r|..]
    && '.' !in r
    && (|r| < |s| ==> s[|s| - |r| - 1] == '.')
  }

  /** Only one suffix of `s` is the text after its last dot. */
  lemma LastSegmentUnique(s: string, r1: string, r2: string)
    requires IsLastSegment(s, r1) && IsLastSegment(s, r2)
    ensures r1 == r2
  {
  }

  /** The text after the last dot, computed from the end of the name. */
  function AfterLastDot(s: string): (r: string)
    ensures IsLastSegment(s, r)
    decreases |s|
  {
    if |s| == 0 || s[|s| - 1] == '.' then ""
    else
      var r := AfterLastDot(s[..|s| - 1]) + [s[|s| - 1]];
      assert s[|s| - |r|..] == s[..|s| - 1][|s| - |r|..] + [s[|s| - 1]];
      r
  }

  /** `fileName.split(".").pop()?.toLowerCase()`. `split` never yields an
      empty array, so the optional chain never short-circuits. */
  function Extension(fileName: string): string {
    var parts := SplitOnDot(fileName);
    Lower(parts[|parts| - 1])
  }

  /** The extension is the lower-cased text after the last dot, or the whole
      lower-cased name when there is no dot. */
  lemma ExtensionIsAfterLastDot(fileName: string)
    ensures Extension(fileName) == Lower(AfterLastDot(fileName))
  {
    var parts := SplitOnDot(fileName);
    LastSegmentUnique(fileName, parts[|parts| - 1], AfterLastDot(fileName));
  }

  /** Only '.' lowers to '.'. */
  lemma LowerKeepsDots(c: char)
    ensures LowerChar(c) == '.' <==> c == '.'
  {
  }

  /** Taking the text after the last dot commutes with lowering. */
  lemma AfterLastDotLower(s: string)
    ensures AfterLastDot(Lower(s)) == Lower(AfterLastDot(s))
  {
    LowerKeepsLastSegment(s, AfterLastDot(s));
    LastSegmentUnique(Lower(s), AfterLastDot(Lower(s)), Lower(AfterLastDot(s)));
  }

  /** Lowering keeps the dots where they are. */
  lemma LowerKeepsLastSegment(s: string, r: string)
    requires IsLastSegment(s, r)
    ensures IsLastSegment(Lower(s), Lower(r))
  {
    var lr := Lower(r);
    LowerSuffix(s, |s| - |r|);
    forall i | 0 <= i < |lr| ensures lr[i] != '.' {
      LowerKeepsDots(r[i]);
    }
    if |r| < |s| {
      LowerKeepsDots(s[|s| - |r| - 1]);
    }
  }

  /** The eight categories `getFileType` reports. */
  datatype Category = Image | Video | Audio | Document | Spreadsheet | Presentation | Archive | Other {

    /** The string the source returns for this category. */
    function Label(): string {
      match this
      case Image => "image"
      case Video => "video"
      case Audio => "audio"
      case Document => "document"
      case Spreadsheet => "spreadsheet"
      case Presentation => "presentation"
      case Archive => "archive"
      case Other => "file"
    }
  }

  const CategoryLabels: set<string> :=
    {"image", "video", "audio", "document", "spreadsheet", "presentation", "archive", "file"}

  /** The extension list of each category; the fallback has none. */
  function Extensions(c: Category): seq<string> {
    match c
    case Image => ["jpg", "jpeg", "png", "gif", "webp", "svg", "bmp"]
    case Video => ["mp4", "avi", "mov", "wmv", "flv", "webm", "mkv"]
    case Audio => ["mp3", "wav", "flac", "aac", "ogg", "wma"]
    case Document => ["pdf", "doc", "docx", "txt", "rtf", "odt"]
    case Spreadsheet => ["xls", "xlsx", "csv", "ods"]
    case Presentation => ["ppt", "pptx", "odp"]
    case Archive => ["zip", "rar", "7z", "tar", "gz"]
    case Other => []
  }

  /** The chain of `includes` tests, in source order. */
  function Classify(ext: string): (c: Category)
    ensures c != Other ==> ext in Extensions(c)
    ensures c == Other <==> forall k: Category :: ext !in Extensions(k)
  {
    if ext in Extensions(Image) then Image
    else if ext in Extensions(Video) then Video
    else if ext in Extensions(Audio) then Audio
    else if ext in Extensions(Document) then Document
    else if ext in Extensions(Spreadsheet) then Spreadsheet
    else if ext in Extensions(Presentation) then Presentation
    else if ext in Extensions(Archive) then Archive
    else Other
  }

  /** A listed extension is classified under its own list: no earlier test
      in the chain claims it. */
  lemma ClassifyListed(ext: string, k: Category)
    requires ext in Extensions(k)
    ensures Classify(ext) == k
  {
    match k
    case Image =>
    case Video => VideoNotListedEarlier(ext);
    case Audio => AudioNotListedEarlier(ext);
    case Document => DocumentNotListedEarlier(ext);
    case Spreadsheet => SpreadsheetNotListedEarlier(ext);
    case Presentation => PresentationNotListedEarlier(ext);
    case Archive => ArchiveNotListedEarlier(ext);
  }

  /** The lists are pairwise disjoint, stated list by list against the
      lists tested before it. */
  lemma VideoNotListedEarlier(ext: string)
    requires ext in Extensions(Video)
    ensures ext !in Extensions(Image)
  {
  }

  lemma AudioNotListedEarlier(ext: string)
    requires ext in Extensions(Audio)
    ensures ext !in Extensions(Image) && ext !in Extensions(Video)
  {
  }

  lemma DocumentNotListedEarlier(ext: string)
    requires ext in Extensions(Document)
    ensures ext !in Extensions(Image) && ext !in Extensions(Video) && ext !in Extensions(Audio)
  {
  }

  lemma SpreadsheetNotListedEarlier(ext: string)
    requires ext in Extensions(Spreadsheet)
    ensures
      && ext !in Extensions(Image)
      && ext !in Extensions(Video)
      && ext !in Extensions(Audio)
      && ext !in Extensions(Document)
  {
  }

  lemma PresentationNotListedEarlier(ext: string)
    requires ext in Extensions(Presentation)
    ensures
      && ext !in Extensions(Image)
      && ext !in Extensions(Video)
      && ext !in Extensions(Audio)
      && ext !in Extensions(Document)
      && ext !in Extensions(Spreadsheet)
  {
  }

  lemma ArchiveNotListedEarlier(ext: string)
    requires ext in Extensions(Archive)
    ensures
      && ext !in Extensions(Image)
      && ext !in Extensions(Video)
      && ext !in Extensions(Audio)
      && ext !in Extensions(Document)
      && ext !in Extensions(Spreadsheet)
      && ext !in Extensions(Presentation)
  {
  }

  /** No extension is listed under two categories, so the order of the
      tests does not matter. */
  lemma ExtensionsDisjoint(a: Category, b: Category, ext: string)
    requires ext in Extensions(a) && ext in Extensions(b)
    ensures a == b
  {
    ClassifyListed(ext, a);
    ClassifyListed(ext, b);
  }

  /** `getFileType`: one of the eight labels, "file" exactly when the
      extension is in no list. */
  function GetFileType(fileName: string): (kind: string)
    ensures kind in CategoryLabels
    ensures kind == "file" <==> forall k: Category :: Extension(fileName) !in Extensions(k)
  {
    Classify(Extension(fileName)).Label()
  }

  /** Names that differ only in letter case get the same category. */
  lemma GetFileTypeIgnoresCase(a: string, b: string)
    requires Lower(a) == Lower(b)
    ensures GetFileType(a) == GetFileType(b)
  {
    ExtensionIsAfterLastDot(a);
    ExtensionIsAfterLastDot(b);
    AfterLastDotLower(a);
    AfterLastDotLower(b);
  }

  /** The category of a name is the one whose list holds its extension. */
  lemma GetFileTypeListed(fileName: string, k: Category)
    requires Lower(AfterLastDot(fileName)) in Extensions(k)
    ensures GetFileType(fileName) == k.Label()
  {
    ExtensionIsAfterLastDot(fileName);
    ClassifyListed(Extension(fileName), k);
  }

  /** A name without a dot is its own extension, so a bare "zip" is an archive. */
  lemma GetFileTypeBareName()
    ensures GetFileType("zip") == "archive"
  {
    assert AfterLastDot("zip") == "zip";
    assert Lower("zip") == "zip";
    GetFileTypeListed("zip", Archive);
  }

  /** The extension is matched whatever its letter case. */
  lemma GetFileTypeUpperCase()
    ensures GetFileType("Report.PDF") == "document"
  {
    assert AfterLastDot("Report.PDF") == "PDF";
    LowerPdf();
    GetFileTypeListed("Report.PDF", Document);
  }

  lemma LowerPdf()
    ensures Lower("PDF") == "pdf"
  {
    assert LowerChar('P') == 'p' && LowerChar('D') == 'd' && LowerChar('F') == 'f';
  }

  /** Only the text after the last dot counts. */
  lemma GetFileTypeLastDot()
    ensures GetFileType("backup.tar.gz") == "archive"
  {
    var name := "backup.tar.gz";
    assert IsLastSegment(name, "gz") by {
      assert name[|name| - 2..] == "gz";
    }
    LastSegmentUnique(name, AfterLastDot(name), "gz");
    assert Lower("gz") == "gz";
    GetFileTypeListed(name, Archive);
  }

  /** A trailing dot leaves an empty extension, which no list holds. */
  lemma GetFileTypeTrailingDot()
    ensures GetFileType("notes.") == "file"
  {
    ExtensionIsAfterLastDot("notes.");
    assert AfterLastDot("notes.") == "";
    assert Extension("notes.") == "";
    ClassifyEmpty();
  }

  /** The empty extension is in no list. */
  lemma ClassifyEmpty()
    ensures Classify("") == Other
  {
  }

  // ---------------------------------------------------------------------
  // Share links
  // ---------------------------------------------------------------------

  const ShareOrigin: string := "https://dropzone.app/share/"

  /** `generateShareableLink`. */
  function ShareLink(fileId: string): (link: string)
    ensures |link| == |ShareOrigin| + |fileId|
    ensures ShareOrigin <= link
    ensures link[|ShareOrigin|..] == fileId
  {
    ShareOrigin + fileId
  }

  /** Reads the file id back out of a share link; `None` for any other URL. */
  function ParseShareLink(link: string): (id: Option<string>)
    ensures id.Some? ==> ShareLink(id.value) == link
  {
    if ShareOrigin <= link then Some(link[|ShareOrigin|..]) else None
  }

  /** Parsing inverts link construction, and only links built by
      `ShareLink` parse. */
  lemma ShareLinkRoundTrip(fileId: string, link: string)
    ensures ParseShareLink(ShareLink(fileId)) == Some(fileId)
    ensures ParseShareLink(link) == Some(fileId) <==> link == ShareLink(fileId)
  {
    assert ShareLink(fileId)[|ShareOrigin|..] == fileId;
  }

  /** Distinct ids give distinct links. */
  lemma ShareLinkInjective(a: string, b: string)
    requires ShareLink(a) == ShareLink(b)
    ensures a == b
  {
    ShareLinkRoundTrip(a, ShareLink(a));
    ShareLinkRoundTrip(b, ShareLink(b));
  }

  lemma ShareLinkExample()
    ensures ShareLink("abc123") == "https://dropzone.app/share/abc123"
  {
  }
}

=== FILE: home_page.dfy ===
/** The active-upload list of the home page
    (src/components/pages/HomePage.jsx). Each upload chain is modelled on
    its own; how the callbacks of several chains interleave is not. */
module HomePage {
  import opened Seqs
  import FileUtils
  import UploadService

  datatype UploadStatus = Uploading | Completed

  /** One row of `activeUploads`. */
  datatype ActiveUpload = ActiveUpload(
    id: string, name: string, size: nat, totalSize: nat,
    uploadedSize: real, progress: real, speed: real, status: UploadStatus)

  /** The page state: the active uploads and the history-refresh counter. */
  datatype HomeState = HomeState(active: seq<ActiveUpload>, historyRefresh: nat)

  /** The entry created for an accepted file: nothing sent yet. */
  function NewUpload(file: FileUtils.File, id: string): (u: ActiveUpload)
    ensures u.id == id && u.name == file.name && u.size == file.size && u.totalSize == file.size
    ensures u.uploadedSize == 0.0 && u.progress == 0.0 && u.speed == 0.0 && u.status == Uploading
  {
    ActiveUpload(id, file.name, file.size, file.size, 0.0, 0.0, 0.0, Uploading)
  }

  /** `handleFilesSelected`, first step: one fresh entry per file (with the
      id generated for it) appended after the existing entries. */
  function StartUploads(st: HomeState, files: seq<FileUtils.File>, ids: seq<string>): (r: HomeState)
    requires |ids| == |files|
    ensures |r.active| == |st.active| + |files|
    ensures r.active[..|st.active|] == st.active
    ensures forall i :: 0 <= i < |files| ==> r.active[|st.active| + i] == NewUpload(files[i], ids[i])
    ensures r.historyRefresh == st.historyRefresh
  {
    var added := seq(|files|, i requires 0 <= i < |files| => NewUpload(files[i], ids[i]));
    st.(active := st.active + added)
  }

  /** The progress callback: the entry with this id takes the reported
      progress, byte count and speed; every other entry, and every other
      field, is left alone. */
  function ApplyProgress(st: HomeState, id: string, ev: UploadService.ProgressEvent): (r: HomeState)
    ensures |r.active| == |st.active| && r.historyRefresh == st.historyRefresh
    ensures forall i :: 0 <= i < |st.active| && st.active[i].id != id ==> r.active[i] == st.active[i]
    ensures forall i :: 0 <= i < |st.active| && st.active[i].id == id ==>
      r.active[i] == st.active[i].(progress := ev.progress, uploadedSize := ev.uploadedSize, speed := ev.speed)
  {
    st.(active := seq(|st.active|, i requires 0 <= i < |st.active| =>
      var u := st.active[i];
      if u.id == id then u.(progress := ev.progress, uploadedSize := ev.uploadedSize, speed := ev.speed) else u))
  }

  /** A whole chain of progress callbacks for one id. */
  function ApplyAll(st: HomeState, id: string, events: seq<UploadService.ProgressEvent>): (r: HomeState)
    ensures |r.active| == |st.active| && r.historyRefresh == st.historyRefresh
    ensures forall i :: 0 <= i < |st.active| ==> r.active[i].id == st.active[i].id
    ensures forall i :: 0 <= i < |st.active| && st.active[i].id != id ==> r.active[i] == st.active[i]
    ensures |events| == 0 ==> r == st
    ensures forall i :: 0 <= i < |st.active| && st.active[i].id == id ==>
      r.active[i] == st.active[i].(progress := r.active[i].progress,
                                   uploadedSize := r.active[i].uploadedSize, speed := r.active[i].speed)
    ensures |events| > 0 ==> forall i :: 0 <= i < |st.active| && st.active[i].id == id ==>
      && r.active[i].progress == events[|events| - 1].progress
      && r.active[i].uploadedSize == events[|events| - 1].uploadedSize
      && r.active[i].speed == events[|events| - 1].speed
    decreases |events|
  {
    if |events| == 0 then st
    else ApplyAll(ApplyProgress(st, id, events[0]), id, events[1..])
  }

  /** A finished upload: the entry with this id is marked completed at 100%,
      and the history is told to refresh once. */
  function OnUploaded(st: HomeState, id: string): (r: HomeState)
    ensures |r.active| == |st.active| && r.historyRefresh == st.historyRefresh + 1
    ensures forall i :: 0 <= i < |st.active| && st.active[i].id != id ==> r.active[i] == st.active[i]
    ensures forall i :: 0 <= i < |st.active| && st.active[i].id == id ==>
      r.active[i] == st.active[i].(status := Completed, progress := 100.0)
  {
    HomeState(
      seq(|st.active|, i requires 0 <= i < |st.active| =>
        var u := st.active[i];
        if u.id == id then u.(status := Completed, progress := 100.0) else u),
      st.historyRefresh + 1)
  }

  /** Removing an entry, both two seconds after completion and at once on
      failure: exactly the entries with this id go, the rest stay in order. */
  function RemoveUpload(st: HomeState, id: string): (r: HomeState)
    ensures r.historyRefresh == st.historyRefresh
    ensures forall u :: u in r.active <==> u in st.active && u.id != id
    ensures SubsequenceOf(r.active, st.active)
    ensures forall u :: multiset(r.active)[u] == if u.id != id then multiset(st.active)[u] else 0
    ensures (forall u :: u in st.active ==> u.id != id) ==> r == st
  {
    var keep := (u: ActiveUpload) => u.id != id;
    FilterKeepsAll(st.active, keep);
    FilterKeepsOrder(st.active, keep);
    FilterCounts(st.active, keep);
    st.(active := Filter(st.active, keep))
  }

  /** The drop zone is disabled while any upload is on the list. */
  function DropZoneDisabled(st: HomeState): (disabled: bool)
    ensures disabled <==> exists u :: u in st.active
  {
    assert |st.active| > 0 ==> st.active[0] in st.active;
    |st.active| > 0
  }

  /** Starting one upload whose id is new, running it through any number of
      progress callbacks and then either removing it after completion or
      removing it on failure leaves the list as it was; only a completion
      bumps the refresh counter, by exactly one. */
  lemma UploadLifecycle(st: HomeState, file: FileUtils.File, id: string,
                        events: seq<UploadService.ProgressEvent>, succeeded: bool)
    requires forall u :: u in st.active ==> u.id != id
    ensures var running := ApplyAll(StartUploads(st, [file], [id]), id, events);
            var finished := if succeeded then OnUploaded(running, id) else running;
            RemoveUpload(finished, id) == st.(historyRefresh := st.historyRefresh + (if succeeded then 1 else 0))
  {
    var running := ApplyAll(StartUploads(st, [file], [id]), id, events);
    var finished := if succeeded then OnUploaded(running, id) else running;
    LifecycleAppendsOne(st, file, id, events, succeeded);
    RemoveAppended(st.active, finished.active[|st.active|], finished.historyRefresh);
  }

  /** Until it is removed, the upload's entry is the one after the entries
      that were there before. */
  lemma LifecycleAppendsOne(st: HomeState, file: FileUtils.File, id: string,
                            events: seq<UploadService.ProgressEvent>, succeeded: bool)
    requires forall u :: u in st.active ==> u.id != id
    ensures var running := ApplyAll(StartUploads(st, [file], [id]), id, events);
            var finished := if succeeded then OnUploaded(running, id) else running;
            && finished.active == st.active + [finished.active[|st.active|]]
            && finished.active[|st.active|].id == id
            && finished.historyRefresh == st.historyRefresh + (if succeeded then 1 else 0)
  {
    var running := ApplyAll(StartUploads(st, [file], [id]), id, events);
    var finished := if succeeded then OnUploaded(running, id) else running;
    var n := |st.active|;
    RunningAppendsOne(st, file, id, events);
    assert finished.active[..n] == st.active by {
      forall i | 0 <= i < n ensures finished.active[i] == st.active[i] {
        assert running.active[i] == st.active[i];
      }
    }
    assert finished.active == finished.active[..n] + [finished.active[n]];
  }

  /** While its callbacks run, the upload's entry stays after the entries
      that were there before, and those are untouched. */
  lemma RunningAppendsOne(st: HomeState, file: FileUtils.File, id: string,
                          events: seq<UploadService.ProgressEvent>)
    requires forall u :: u in st.active ==> u.id != id
    ensures var running := ApplyAll(StartUploads(st, [file], [id]), id, events);
            && |running.active| == |st.active| + 1
            && running.active[..|st.active|] == st.active
            && running.active[|st.active|].id == id
            && running.historyRefresh == st.historyRefresh
  {
    var started := StartUploads(st, [file], [id]);
    var running := ApplyAll(started, id, events);
    var n := |st.active|;
    assert started.active[n].id == id;
    assert running.active[..n] == st.active by {
      forall i | 0 <= i < n ensures running.active[i] == st.active[i] {
        assert st.active[i] in st.active;
        assert started.active[i] == st.active[i];
      }
    }
  }

  /** Removing an id that only the last entry carries leaves the entries
      before it. */
  lemma RemoveAppended(active: seq<ActiveUpload>, last: ActiveUpload, refresh: nat)
    requires forall u :: u in active ==> u.id != last.id
    ensures RemoveUpload(HomeState(active + [last], refresh), last.id) == HomeState(active, refresh)
  {
    var p := (u: ActiveUpload) => u.id != last.id;
    FilterAppend(active, [last], p);
    FilterKeepsAll(active, p);
  }
}

=== FILE: seqs.dfy ===
/** Sequence helpers: the one definition of `Array.prototype.filter`,
    duplicate-freedom, and the sum of a sequence of reals. */
module Seqs {

  /** `r` lists the elements of `s` found at the positions `idx`, which
      strictly increase. */
  ghost predicate PicksAt<T>(r: seq<T>, s: seq<T>, idx: seq<int>) {
    && |idx| == |r|
    && (forall i :: 0 <= i < |idx| ==> 0 <= idx[i] < |s| && r[i] == s[idx[i]])
    && (forall i, j :: 0 <= i < j < |idx| ==> idx[i] < idx[j])
  }

  /** `r` is `s` with some elements left out and the rest in their
      original order. */
  ghost predicate SubsequenceOf<T>(r: seq<T>, s: seq<T>) {
    exists idx :: PicksAt(r, s, idx)
  }

  /** `s.filter(p)`: the elements of `s` satisfying `p`. That they keep
      their order and their multiplicity is `FilterKeepsOrder` and
      `FilterCounts`. */
  function Filter<T(!new)>(s: seq<T>, p: T -> bool): (r: seq<T>)
    ensures |r| <= |s|
    ensures forall x :: x in r <==> x in s && p(x)
    ensures forall i :: 0 <= i < |r| ==> p(r[i])
    decreases |s|
  {
    if |s| == 0 then []
    else (if p(s[0]) then [s[0]] else []) + Filter(s[1..], p)
  }

  /** A filter keeps the surviving elements in their original order. */
  lemma {:induction false} FilterKeepsOrder<T(!new)>(s: seq<T>, p: T -> bool)
    ensures SubsequenceOf(Filter(s, p), s)
    decreases |s|
  {
    if |s| == 0 {
      var none: seq<int> := [];
      assert PicksAt([], s, none);
    } else {
      FilterKeepsOrder(s[1..], p);
      var idx :| PicksAt(Filter(s[1..], p), s[1..], idx);
      ShiftedPicks(s, p(s[0]), Filter(s[1..], p), idx);
    }
  }

  /** A filter keeps every passing element as often as it occurs, and no
      other element. */
  lemma {:induction false} FilterCounts<T(!new)>(s: seq<T>, p: T -> bool)
    ensures forall x :: multiset(Filter(s, p))[x] == if p(x) then multiset(s)[x] else 0
    decreases |s|
  {
    if |s| > 0 {
      FilterCounts(s[1..], p);
      assert s == [s[0]] + s[1..];
    }
  }

  /** The positions picked in `s[1..]`, moved one to the right, and the
      head if it is kept. */
  lemma ShiftedPicks<T>(s: seq<T>, keepHead: bool, rest: seq<T>, idx: seq<int>)
    requires |s| > 0 && PicksAt(rest, s[1..], idx)
    ensures SubsequenceOf((if keepHead then [s[0]] else []) + rest, s)
  {
    var shifted := seq(|idx|, i requires 0 <= i < |idx| => idx[i] + 1);
    var r := (if keepHead then [s[0]] else []) + rest;
    var picks := (if keepHead then [0] else []) + shifted;
    assert PicksAt(r, s, picks);
  }

  /** Filtering a concatenation filters each part: together with the
      singleton cases this is what "keeps the rest in order" means. */
  lemma {:induction false} FilterAppend<T(!new)>(a: seq<T>, b: seq<T>, p: T -> bool)
    ensures Filter(a + b, p) == Filter(a, p) + Filter(b, p)
    decreases |a|
  {
    if |a| == 0 {
      assert a + b == b;
    } else {
      assert (a + b)[1..] == a[1..] + b;
      FilterAppend(a[1..], b, p);
    }
  }

  /** Filtering a sequence with one more element at the end. */
  lemma FilterSnoc<T(!new)>(s: seq<T>, x: T, p: T -> bool)
    ensures Filter(s + [x], p) == Filter(s, p) + (if p(x) then [x] else [])
  {
    FilterAppend(s, [x], p);
    assert [x][1..] == [];
  }

  /** The positions of `s` whose element passes `p`. */
  ghost function Positions<T>(s: seq<T>, p: T -> bool): set<int> {
    set i | 0 <= i < |s| && p(s[i])
  }

  /** The filtered length is the number of positions whose element passes. */
  lemma {:induction false} FilterLengthCountsPositions<T(!new)>(s: seq<T>, p: T -> bool)
    ensures |Filter(s, p)| == |Positions(s, p)|
    decreases |s|
  {
    if |s| == 0 {
      assert Positions(s, p) == {};
    } else {
      var init, last := s[..|s| - 1], s[|s| - 1];
      assert s == init + [last];
      FilterSnoc(init, last, p);
      FilterLengthCountsPositions(init, p);
      PositionsSnoc(s, p);
    }
  }

  /** The passing positions of a non-empty sequence: those of all but its
      last element, plus the last position when that element passes. */
  lemma PositionsSnoc<T>(s: seq<T>, p: T -> bool)
    requires |s| > 0
    ensures |s| - 1 !in Positions(s[..|s| - 1], p)
    ensures Positions(s, p) == Positions(s[..|s| - 1], p) + (if p(s[|s| - 1]) then {|s| - 1} else {})
  {
    var init := s[..|s| - 1];
    forall i ensures i in Positions(s, p) <==> i in Positions(init, p) + (if p(s[|s| - 1]) then {|s| - 1} else {}) {
      if 0 <= i < |init| {
        assert s[i] == init[i];
      }
    }
  }

  /** Filtering keeps a sequence unchanged exactly when every element passes. */
  lemma FilterKeepsAll<T(!new)>(s: seq<T>, p: T -> bool)
    ensures Filter(s, p) == s <==> forall x :: x in s ==> p(x)
  {
    if forall x :: x in s ==> p(x) {
      FilterAllPass(s, p);
    }
  }

  lemma {:induction false} FilterAllPass<T(!new)>(s: seq<T>, p: T -> bool)
    requires forall i :: 0 <= i < |s| ==> p(s[i])
    ensures Filter(s, p) == s
    decreases |s|
  {
    if |s| > 0 {
      FilterAllPass(s[1..], p);
      assert s == [s[0]] + s[1..];
    }
  }

  /** The filtered length reaches the full length only when nothing is dropped. */
  lemma {:induction false} FilterFullLength<T(!new)>(s: seq<T>, p: T -> bool)
    ensures |Filter(s, p)| == |s| <==> forall i :: 0 <= i < |s| ==> p(s[i])
    decreases |s|
  {
    if |s| > 0 {
      FilterFullLength(s[1..], p);
      if forall i :: 0 <= i < |s| ==> p(s[i]) {
        assert forall i :: 0 <= i < |s[1..]| ==> p(s[1..][i]) by {
          forall i | 0 <= i < |s[1..]| ensures p(s[1..][i]) {
            assert s[1..][i] == s[i + 1];
          }
        }
      }
    }
  }

  /** A filter and the filter by the opposite test split the input's length. */
  lemma {:induction false} FilterSplitsLength<T(!new)>(s: seq<T>, p: T -> bool, q: T -> bool)
    requires forall x :: q(x) == !p(x)
    ensures |Filter(s, p)| + |Filter(s, q)| == |s|
    decreases |s|
  {
    if |s| > 0 {
      FilterSplitsLength(s[1..], p, q);
    }
  }

  /** A filter is empty exactly when no element passes. */
  lemma FilterEmpty<T(!new)>(s: seq<T>, p: T -> bool)
    ensures |Filter(s, p)| == 0 <==> forall i :: 0 <= i < |s| ==> !p(s[i])
  {
    if |Filter(s, p)| > 0 {
      assert Filter(s, p)[0] in Filter(s, p);
    } else {
      forall i | 0 <= i < |s| ensures !p(s[i]) {
        assert s[i] in s;
      }
    }
  }

  /** The head of a filter is the first element that passes. */
  lemma {:induction false} FilterHead<T(!new)>(s: seq<T>, p: T -> bool, i: nat)
    requires i < |s| && p(s[i])
    requires forall j :: 0 <= j < i ==> !p(s[j])
    ensures |Filter(s, p)| > 0 && Filter(s, p)[0] == s[i]
    decreases i
  {
    if i > 0 {
      FilterHead(s[1..], p, i - 1);
    }
  }

  /** No element occurs twice. */
  ghost predicate NoDup<T>(s: seq<T>) {
    forall i, j :: 0 <= i < j < |s| ==> s[i] != s[j]
  }

  /** A filtered duplicate-free sequence is duplicate-free. */
  lemma {:induction false} FilterNoDup<T(!new)>(s: seq<T>, p: T -> bool)
    ensures NoDup(s) ==> NoDup(Filter(s, p))
    decreases |s|
  {
    if |s| > 0 {
      FilterNoDup(s[1..], p);
    }
  }

  /** Sum of a sequence of reals, peeling off the last element. */
  function Sum(s: seq<real>): real
    decreases |s|
  {
    if |s| == 0 then 0.0 else Sum(s[..|s| - 1]) + s[|s| - 1]
  }
}

=== FILE: strings.dfy ===
/** ASCII counterparts of the JavaScript string methods the core relies on:
    `toLowerCase`, `includes`, `trim` and `Array.prototype.join`. */
module Strings {

  /** `c.toLowerCase()` restricted to ASCII: only 'A'..'Z' change. */
  function LowerChar(c: char): char {
    if 'A' <= c <= 'Z' then (c as int + 32) as char else c
  }

  /** `s.toLowerCase()`, character by character. */
  function Lower(s: string): (r: string)
    ensures |r| == |s|
    ensures forall i :: 0 <= i < |s| ==> r[i] == LowerChar(s[i])
  {
    seq(|s|, i requires 0 <= i < |s| => LowerChar(s[i]))
  }

  /** Lowering commutes with taking a suffix. */
  lemma LowerSuffix(s: string, k: nat)
    requires k <= |s|
    ensures Lower(s[k..]) == Lower(s)[k..]
  {
  }

  /** `sub` occurs in `s` starting at index `i`. */
  predicate OccursAt(s: string, sub: string, i: int) {
    0 <= i <= |s| - |sub| && s[i..i + |sub|] == sub
  }

  /** `s.includes(sub)`: `sub` occurs in `s` at some position. */
  function Contains(s: string, sub: string): (b: bool)
    ensures b <==> exists i :: OccursAt(s, sub, i)
    decreases |s|
  {
    if |sub| <= |s| && s[..|sub|] == sub then
      assert OccursAt(s, sub, 0);
      true
    else if |s| <= |sub| then
      false
    else
      var b := Contains(s[1..], sub);
      assert b ==> exists i :: OccursAt(s, sub, i) by {
        if b {
          var j :| OccursAt(s[1..], sub, j);
          assert s[j + 1..j + 1 + |sub|] == s[1..][j..j + |sub|];
          assert OccursAt(s, sub, j + 1);
        }
      }
      assert forall i :: OccursAt(s, sub, i) ==> OccursAt(s[1..], sub, i - 1) by {
        forall i | OccursAt(s, sub, i) ensures OccursAt(s[1..], sub, i - 1) {
          assert i != 0;
          assert s[1..][i - 1..i - 1 + |sub|] == s[i..i + |sub|];
        }
      }
      b
  }

  /** Every string contains the empty string. */
  lemma ContainsEmpty(s: string)
    ensures Contains(s, "")
  {
    assert OccursAt(s, "", 0);
  }

  /** The characters `String.prototype.trim` removes, restricted to ASCII:
      space, tab, line feed, vertical tab, form feed, carriage return. */
  predicate IsSpace(c: char) {
    c == ' ' || c == '\t' || c == '\n' || c == '\U{000B}' || c == '\U{000C}' || c == '\r'
  }

  ghost predicate AllSpace(s: string) {
    forall i :: 0 <= i < |s| ==> IsSpace(s[i])
  }

  /** Drops leading white space. */
  function TrimStart(s: string): (r: string)
    ensures |r| <= |s| && r == s[|s| - |r|..]
    ensures AllSpace(s[..|s| - |r|])
    ensures |r| > 0 ==> !IsSpace(r[0])
    decreases |s|
  {
    if |s| > 0 && IsSpace(s[0]) then
      var r := TrimStart(s[1..]);
      var cut := s[1..][..|s[1..]| - |r|];
      assert AllSpace(s[..|s| - |r|]) by {
        assert s[..|s| - |r|] == [s[0]] + cut;
        forall j | 1 <= j < |s| - |r| ensures IsSpace(s[j]) {
          assert s[j] == cut[j - 1];
        }
      }
      r
    else s
  }

  /** Drops trailing white space. */
  function TrimEnd(s: string): (r: string)
    ensures |r| <= |s| && r == s[..|r|]
    ensures AllSpace(s[|r|..])
    ensures |r| > 0 ==> !IsSpace(r[|r| - 1])
    decreases |s|
  {
    if |s| > 0 && IsSpace(s[|s| - 1]) then
      var r := TrimEnd(s[..|s| - 1]);
      assert s[|r|..] == s[..|s| - 1][|r|..] + [s[|s| - 1]];
      r
    else s
  }

  /** `r` is the slice of `s` starting at `i`, with only white space around it. */
  ghost predicate TrimmedAt(s: string, r: string, i: int) {
    0 <= i <= |s| - |r| && r == s[i..i + |r|] && AllSpace(s[..i]) && AllSpace(s[i + |r|..])
  }

  /** `s.trim()`: the slice of `s` left once white space is cut from both
      ends; it neither begins nor ends with white space, and everything cut
      was white space. */
  function Trim(s: string): (r: string)
    ensures exists i :: TrimmedAt(s, r, i)
    ensures |r| > 0 ==> !IsSpace(r[0]) && !IsSpace(r[|r| - 1])
  {
    TrimBothEnds(s);
    TrimEnd(TrimStart(s))
  }

  /** Trimming the start and then the end cuts white space off both ends. */
  lemma TrimBothEnds(s: string)
    ensures TrimmedAt(s, TrimEnd(TrimStart(s)), |s| - |TrimStart(s)|)
  {
    var t := TrimStart(s);
    var i := |s| - |t|;
    assert t == s[i..];
    var r := TrimEnd(t);
    assert r == t[..|r|];
    assert s[i..i + |r|] == t[..|r|];
    assert s[i + |r|..] == t[|r|..];
  }

  /** A string trims to nothing exactly when it is all white space. */
  lemma TrimEmptyIffBlank(s: string)
    ensures Trim(s) == "" <==> AllSpace(s)
  {
    var t := TrimStart(s);
    if !AllSpace(s) {
      var k :| 0 <= k < |s| && !IsSpace(s[k]);
      assert |t| > 0 && |TrimEnd(t)| > 0;
    }
  }

  /** Trimming is idempotent. */
  lemma TrimIdempotent(s: string)
    ensures Trim(Trim(s)) == Trim(s)
  {
  }

  /** `parts.join(sep)`. */
  function Join(parts: seq<string>, sep: string): string
    decreases |parts|
  {
    if |parts| == 0 then ""
    else if |parts| == 1 then parts[0]
    else parts[0] + sep + Join(parts[1..], sep)
  }
}

=== FILE: task_form.dfy ===
/** The task form (src/components/pages/TaskForm.jsx): loading a task into
    the form, submit-time validation and trimming, which service call is
    made, and where the page goes afterwards. The route's `:id` is the
    task's Id, `None` on the create route. */
module TaskForm {
  import opened Wrappers
  import opened Strings
  import opened TaskService

  /** The form fields; an empty attachment select is `None`. */
  datatype FormData = FormData(title: string, description: string, tags: string, attachment: Option<int>)

  /** The outcome of `loadTask`. */
  datatype Loaded = Filled(form: FormData) | LoadFailed(message: string)

  /** `loadTask`, given what `getTaskById` returned: missing fields become
      empty strings, the attached file becomes its Id (an Id of 0 counts as
      no attachment, as `|| ''` would have it), and a missing task is an
      error. */
  function LoadTask(found: Option<Task>): (r: Loaded)
    ensures found.None? <==> r == LoadFailed("Task not found")
    ensures found.Some? ==> r.Filled?
    ensures found.Some? ==>
      && r.form.title == found.value.title.GetOr("")
      && r.form.description == found.value.description.GetOr("")
      && r.form.tags == found.value.tags.GetOr("")
    ensures found.Some? ==>
      (r.form.attachment.Some? <==> found.value.attachment.Some? && found.value.attachment.value.id != 0)
    ensures found.Some? && r.form.attachment.Some? ==> r.form.attachment.value == found.value.attachment.value.id
  {
    match found
    case None => LoadFailed("Task not found")
    case Some(t) =>
      Filled(FormData(
        OrElse(t.title, ""), OrElse(t.description, ""), OrElse(t.tags, ""),
        if t.attachment.Some? && t.attachment.value.id != 0 then Some(t.attachment.value.id) else None))
  }

  /** What pressing "save" does. */
  datatype Submission = Refused(message: string) | CallCreate(payload: TaskInput) | CallUpdate(taskId: int, payload: TaskInput)

  /** `handleSubmit` up to the service call: a title that is blank after
      trimming is refused before any call; otherwise the trimmed fields are
      sent (no `Name`), to `updateTask` on the edit route and to
      `createTask` on the create route. */
  function Submit(form: FormData, routeId: Option<int>): (s: Submission)
    ensures s.Refused? <==> AllSpace(form.title)
    ensures s.Refused? ==> s.message == "Please enter a task title"
    ensures s.CallUpdate? <==> !AllSpace(form.title) && routeId.Some?
    ensures s.CallUpdate? ==> s.taskId == routeId.value
    ensures !s.Refused? ==>
      && s.payload.name.None?
      && s.payload.title == Some(Trim(form.title)) && Trim(form.title) != ""
      && s.payload.description == Some(Trim(form.description))
      && s.payload.tags == Some(Trim(form.tags))
      && s.payload.attachment == form.attachment
  {
    TrimEmptyIffBlank(form.title);
    if Trim(form.title) == "" then Refused("Please enter a task title")
    else
      var payload := TaskInput(None, Some(Trim(form.title)), Some(Trim(form.description)),
                               Some(Trim(form.tags)), form.attachment);
      match routeId
      case Some(id) => CallUpdate(id, payload)
      case None => CallCreate(payload)
  }

  /** Where the page goes after the service call. */
  datatype Navigation = Stay | ToTask(id: int) | ToTaskIndex

  /** After a save: an error stays on the form; an update goes to the
      edited task; a create goes to the new task when a record came back,
      else to the task list. */
  function AfterSave(routeId: Option<int>, saved: Outcome<Option<Task>>): (n: Navigation)
    ensures saved.Raised? <==> n == Stay
    ensures saved.Returned? && routeId.Some? ==> n == ToTask(routeId.value)
    ensures saved.Returned? && routeId.None? ==> (n == ToTaskIndex <==> saved.value.None?)
    ensures saved.Returned? && routeId.None? && saved.value.Some? ==> n == ToTask(saved.value.value.id)
  {
    match saved
    case Raised(_) => Stay
    case Returned(t) =>
      if routeId.Some? then ToTask(routeId.value)
      else if t.Some? then ToTask(t.value.id)
      else ToTaskIndex
  }

  /** The toast shown when the save raised: the error's own message, or a
      default naming the attempted action when that message is empty. */
  function SaveErrorMessage(routeId: Option<int>, raised: string): (m: string)
    ensures raised != "" ==> m == raised
    ensures raised == "" && routeId.Some? ==> m == "Failed to update task"
    ensures raised == "" && routeId.None? ==> m == "Failed to create task"
    ensures m != ""
  {
    if raised != "" then raised
    else if routeId.Some? then "Failed to update task" else "Failed to create task"
  }

  /** A new task's record is named after its trimmed title, since the form
      never sends a `Name`. */
  lemma CreatedTaskNamedByTitle(form: FormData)
    requires !AllSpace(form.title)
    ensures Submit(form, None).CallCreate?
    ensures CreateRecord(Submit(form, None).payload)["Name"] == Str(Trim(form.title))
    ensures CreateRecord(Submit(form, None).payload)["title_c"] == Str(Trim(form.title))
  {
  }

  /** Opening a task in the form and saving it unchanged sends an update of
      that task with its trimmed fields, and renames it after its title. */
  lemma EditUnchangedResubmits(t: Task)
    requires t.title.Some? && !AllSpace(t.title.value)
    ensures LoadTask(Some(t)).Filled?
    ensures var s := Submit(LoadTask(Some(t)).form, Some(t.id));
      && s == CallUpdate(t.id, s.payload)
      && s.payload.title == Some(Trim(t.title.value))
      && s.payload.description == Some(Trim(t.description.GetOr("")))
      && s.payload.tags == Some(Trim(t.tags.GetOr("")))
      && UpdateRecord(t.id, s.payload)["Name"] == Str(Trim(t.title.value))
  {
  }
}

=== FILE: task_list.dfy ===
/** List state transitions of the task list page
    (src/components/pages/TaskList.jsx): search, selection and deletion.
    The `confirm()` dialog is a boolean parameter; rendering is left out. */
module TaskList {
  import opened Wrappers
  import opened Seqs
  import opened Strings
  import opened TaskService

  // ---------------------------------------------------------------------
  // Search
  // ---------------------------------------------------------------------

  /** `field?.toLowerCase().includes(needle)`: a missing field never matches. */
  predicate FieldMatches(field: Option<string>, needle: string) {
    field.Some? && Contains(Lower(field.value), needle)
  }

  /** The search test of `filteredTasks`. */
  predicate MatchesSearch(t: Task, query: string) {
    var needle := Lower(query);
    FieldMatches(t.title, needle) || FieldMatches(t.description, needle) || FieldMatches(t.tags, needle)
  }

  /** Some searchable field is present. */
  predicate HasSearchableField(t: Task) {
    t.title.Some? || t.description.Some? || t.tags.Some?
  }

  /** `filteredTasks`: a task stays exactly when the lower-cased query occurs
      in its lower-cased title, description or tags; order is kept. */
  function FilteredTasks(tasks: seq<Task>, query: string): (r: seq<Task>)
    ensures forall t :: t in r <==> t in tasks && exists i ::
      || (t.title.Some? && OccursAt(Lower(t.title.value), Lower(query), i))
      || (t.description.Some? && OccursAt(Lower(t.description.value), Lower(query), i))
      || (t.tags.Some? && OccursAt(Lower(t.tags.value), Lower(query), i))
    ensures SubsequenceOf(r, tasks)
    ensures forall t :: multiset(r)[t] == if MatchesSearch(t, query) then multiset(tasks)[t] else 0
  {
    var keep := (t: Task) => MatchesSearch(t, query);
    FilterKeepsOrder(tasks, keep);
    FilterCounts(tasks, keep);
    Filter(tasks, keep)
  }

  /** The empty query keeps every task that has at least one searchable
      field, and only those. */
  lemma EmptyQueryKeepsFieldedTasks(tasks: seq<Task>, t: Task)
    ensures t in FilteredTasks(tasks, "") <==> t in tasks && HasSearchableField(t)
  {
    assert Lower("") == "";
    if t.title.Some? {
      ContainsEmpty(Lower(t.title.value));
    }
    if t.description.Some? {
      ContainsEmpty(Lower(t.description.value));
    }
    if t.tags.Some? {
      ContainsEmpty(Lower(t.tags.value));
    }
  }

  /** When every task has a title, the empty query shows the whole list. */
  lemma EmptyQueryKeepsAll(tasks: seq<Task>)
    requires forall t :: t in tasks ==> t.title.Some?
    ensures FilteredTasks(tasks, "") == tasks
  {
    forall t | t in tasks ensures MatchesSearch(t, "") {
      assert Lower("") == "";
      ContainsEmpty(Lower(t.title.value));
    }
    FilterKeepsAll(tasks, t => MatchesSearch(t, ""));
  }

  // ---------------------------------------------------------------------
  // Selection
  // ---------------------------------------------------------------------

  /** `handleSelectTask`: deselect the id if selected, otherwise append it. */
  function ToggleSelection(selected: seq<int>, id: int): (r: seq<int>)
    ensures id in r <==> id !in selected
    ensures forall x :: x != id ==> (x in r <==> x in selected)
    ensures id !in selected ==> r == selected + [id]
    ensures NoDup(selected) ==> NoDup(r)
    ensures id in selected ==> SubsequenceOf(r, selected)
    ensures id in selected ==> forall x :: multiset(r)[x] == if x != id then multiset(selected)[x] else 0
  {
    if id in selected then
      var keep := (x: int) => x != id;
      FilterNoDup(selected, keep);
      FilterKeepsOrder(selected, keep);
      FilterCounts(selected, keep);
      Filter(selected, keep)
    else
      selected + [id]
  }

  /** Selecting an unselected task and then deselecting it restores the
      selection exactly. */
  lemma ToggleTwiceRestores(selected: seq<int>, id: int)
    requires id !in selected
    ensures ToggleSelection(ToggleSelection(selected, id), id) == selected
  {
    var p := (x: int) => x != id;
    FilterAppend(selected, [id], p);
    FilterKeepsAll(selected, p);
    assert Filter([id], p) == [];
  }

  /** The ids of a list of tasks, in order. */
  function Ids(tasks: seq<Task>): (ids: seq<int>)
    ensures |ids| == |tasks|
    ensures forall i :: 0 <= i < |tasks| ==> ids[i] == tasks[i].id
  {
    seq(|tasks|, i requires 0 <= i < |tasks| => tasks[i].id)
  }

  /** `handleSelectAll`: clear the selection when it is as long as the
      visible list, otherwise select exactly the visible tasks. */
  function SelectAll(selected: seq<int>, filtered: seq<Task>): (r: seq<int>)
    ensures |selected| == |filtered| ==> r == []
    ensures |selected| != |filtered| ==> r == Ids(filtered)
  {
    if |selected| == |filtered| then [] else Ids(filtered)
  }

  /** Select-all selects every visible task and nothing else, and pressing
      it again clears the selection (when some task is visible). */
  lemma SelectAllTwiceClears(selected: seq<int>, filtered: seq<Task>)
    requires |selected| != |filtered|
    ensures forall t :: t in filtered ==> t.id in SelectAll(selected, filtered)
    ensures forall x :: x in SelectAll(selected, filtered) ==> exists t :: t in filtered && t.id == x
    ensures SelectAll(SelectAll(selected, filtered), filtered) == []
  {
    var r := SelectAll(selected, filtered);
    forall t | t in filtered ensures t.id in r {
      var i :| 0 <= i < |filtered| && filtered[i] == t;
      assert r[i] == t.id;
    }
    forall x | x in r ensures exists t :: t in filtered && t.id == x {
      var i :| 0 <= i < |r| && r[i] == x;
      assert filtered[i] in filtered;
    }
  }

  /** Select-all compares lengths only: with one task selected and a
      different single task visible, it clears instead of selecting. */
  lemma SelectAllComparesLengthsOnly(a: Task, b: Task)
    requires a.id != b.id
    ensures SelectAll([a.id], [b]) == []
  {
  }

  // ---------------------------------------------------------------------
  // Loading and deleting
  // ---------------------------------------------------------------------

  /** The page state that these handlers touch. */
  datatype ListState = ListState(tasks: seq<Task>, selected: seq<int>, error: Option<string>)

  /** `loadTasks`: take the fetched list, or show the error and an empty list. */
  function LoadTasks(st: ListState, fetched: Outcome<seq<Task>>): (r: ListState)
    ensures r.selected == st.selected
    ensures fetched.Returned? ==> r.tasks == fetched.value && r.error == None
    ensures fetched.Raised? ==> r.tasks == [] && r.error.Some? && r.error.value != ""
    ensures fetched.Raised? && fetched.message != "" ==> r.error == Some(fetched.message)
    ensures fetched.Raised? && fetched.message == "" ==> r.error == Some("Failed to load tasks")
  {
    match fetched
    case Returned(ts) => ListState(ts, st.selected, None)
    case Raised(m) => ListState([], st.selected, Some(if m == "" then "Failed to load tasks" else m))
  }

  /** `handleDeleteTask`: after a confirmed, successful delete, the tasks
      with that Id are gone and the others stay in order; otherwise nothing
      changes. */
  function DeleteOne(st: ListState, id: int, confirmed: bool, deleted: Outcome<bool>): (r: ListState)
    ensures !confirmed || deleted.Raised? ==> r == st
    ensures r.selected == st.selected && r.error == st.error
    ensures confirmed && deleted.Returned? ==>
      && (forall t :: t in r.tasks <==> t in st.tasks && t.id != id)
      && SubsequenceOf(r.tasks, st.tasks)
      && (forall t :: multiset(r.tasks)[t] == if t.id != id then multiset(st.tasks)[t] else 0)
    ensures (forall t :: t in st.tasks ==> t.id != id) ==> r == st
  {
    if !confirmed || deleted.Raised? then st
    else
      var keep := (t: Task) => t.id != id;
      FilterKeepsAll(st.tasks, keep);
      FilterKeepsOrder(st.tasks, keep);
      FilterCounts(st.tasks, keep);
      st.(tasks := Filter(st.tasks, keep))
  }

  /** `handleBulkDelete`. An empty selection or a declined confirmation
      changes nothing. A `true` answer drops every selected task locally;
      `false` or an error reloads the list. Either way the selection is
      cleared. */
  function BulkDelete(st: ListState, confirmed: bool, deleted: Outcome<bool>, reloaded: Outcome<seq<Task>>): (r: ListState)
    ensures |st.selected| == 0 || !confirmed ==> r == st
    ensures |st.selected| > 0 && confirmed ==> r.selected == []
    ensures |st.selected| > 0 && confirmed && deleted == Returned(true) ==>
      && r.error == st.error
      && (forall t :: t in r.tasks <==> t in st.tasks && t.id !in st.selected)
      && SubsequenceOf(r.tasks, st.tasks)
      && (forall t :: multiset(r.tasks)[t] == if t.id !in st.selected then multiset(st.tasks)[t] else 0)
    ensures |st.selected| > 0 && confirmed && deleted != Returned(true) ==>
      r == LoadTasks(st, reloaded).(selected := [])
  {
    if |st.selected| == 0 || !confirmed then st
    else if deleted == Returned(true) then
      var keep := (t: Task) => t.id !in st.selected;
      FilterKeepsOrder(st.tasks, keep);
      FilterCounts(st.tasks, keep);
      ListState(Filter(st.tasks, keep), [], st.error)
    else
      LoadTasks(st, reloaded).(selected := [])
  }

  /** A confirmed delete whose reply reports no failed entry removes exactly
      the tasks with that Id from the list and keeps the others, in order. */
  lemma DeleteOneAfterSuccess(st: ListState, id: int, reply: MutationReply)
    requires reply.Replied? && reply.success
    requires reply.body.Some? ==> forall i :: 0 <= i < |reply.body.value| ==> reply.body.value[i].success
    ensures var r := DeleteOne(st, id, true, DeleteTask(reply));
      && (forall t :: t in r.tasks ==> t.id != id)
      && (forall t :: t in st.tasks && t.id != id ==> t in r.tasks)
      && SubsequenceOf(r.tasks, st.tasks)
      && r.selected == st.selected
  {
  }

  /** A delete whose reply carries a failed entry leaves the page as it was. */
  lemma DeleteOneAfterFailedEntry(st: ListState, id: int, reply: MutationReply, k: nat)
    requires reply.Replied? && reply.success && reply.body.Some?
    requires k < |reply.body.value| && !reply.body.value[k].success
    ensures DeleteOne(st, id, true, DeleteTask(reply)) == st
  {
  }

  /** Deleting the same task twice is deleting it once. */
  lemma DeleteOneTwice(st: ListState, id: int)
    ensures var once := DeleteOne(st, id, true, Returned(true));
      DeleteOne(once, id, true, Returned(true)) == once
  {
  }

  /** A confirmed bulk delete answered with one successful entry per
      selected id clears the selection, leaves no selected task on the
      list, and keeps every other task, in order. */
  lemma BulkDeleteAfterFullSuccess(st: ListState, results: seq<ItemResult>, reloaded: Outcome<seq<Task>>)
    requires |st.selected| > 0 && |results| == |st.selected|
    requires forall i :: 0 <= i < |results| ==> results[i].success
    ensures var r := BulkDelete(st, true, DeleteTasks(st.selected, Replied(true, "", Some(results))), reloaded);
      && r.selected == []
      && (forall t :: t in r.tasks ==> t.id !in st.selected)
      && (forall t :: t in st.tasks && t.id !in st.selected ==> t in r.tasks)
      && SubsequenceOf(r.tasks, st.tasks)
      && r.error == st.error
  {
  }

  /** When one entry of the answer failed, the list is whatever the reload
      brings and the selection is cleared. */
  lemma BulkDeleteAfterPartialFailure(st: ListState, results: seq<ItemResult>, k: nat, reloaded: Outcome<seq<Task>>)
    requires |st.selected| > 0 && |results| == |st.selected|
    requires k < |results| && !results[k].success
    ensures var r := BulkDelete(st, true, DeleteTasks(st.selected, Replied(true, "", Some(results))), reloaded);
      && r.selected == []
      && r.tasks == LoadTasks(st, reloaded).tasks
  {
    DeleteTasksPartialFailure(st.selected, results, k);
  }
}

=== FILE: task_service.dfy ===
/** Task record shaping and the interpretation of the record-store SDK's
    replies (src/services/api/taskService.js). The SDK call itself is not
    modelled: each operation receives the reply it would have got. */
module TaskService {
  import opened Wrappers
  import opened Seqs

  /** The lookup value the store returns for `upload_history_c`. */
  datatype FileRef = FileRef(id: int, name: string)

  /** A task record as fetched; absent or `null` fields are `None`. */
  datatype Task = Task(
    id: int, name: Option<string>, title: Option<string>, description: Option<string>,
    tags: Option<string>, attachment: Option<FileRef>)

  /** The `taskData` argument of `createTask` / `updateTask`; `attachment`
      is the Id of the attached upload, if any. */
  datatype TaskInput = TaskInput(
    name: Option<string>, title: Option<string>, description: Option<string>,
    tags: Option<string>, attachment: Option<int>)

  /** A field value of an outgoing record; `Null` stands for both `null`
      and `undefined`. */
  datatype Value = Null | Str(s: string) | Num(n: int)

  type Record = map<string, Value>

  /** A string option is truthy when present and non-empty. */
  predicate Truthy(v: Option<string>) {
    v.Some? && v.value != ""
  }

  /** `v || fallback` on an optional string. */
  function OrElse(v: Option<string>, fallback: string): string {
    if Truthy(v) then v.value else fallback
  }

  /** The record literal of `createTask` / `updateTask`, before nulls are removed. */
  function Draft(input: TaskInput, defaultName: string): Record {
    map[
      "Name" := Str(OrElse(input.name, OrElse(input.title, defaultName))),
      "title_c" := (if input.title.Some? then Str(input.title.value) else Null),
      "description_c" := Str(OrElse(input.description, "")),
      "Tags" := Str(OrElse(input.tags, "")),
      "upload_history_c" := (if input.attachment.Some? then Num(input.attachment.value) else Null)
    ]
  }

  /** The `Object.keys(...).forEach(delete)` pass: drop every null field
      except those named in `keep`; every other field is left as it was. */
  function StripNulls(rec: Record, keep: set<string>): (r: Record)
    ensures r.Keys <= rec.Keys
    ensures forall k :: k in r ==> r[k] == rec[k]
    ensures forall k :: k in rec ==> (k in r <==> k in keep || rec[k] != Null)
    ensures forall k :: k in r && k !in keep ==> r[k] != Null
  {
    map k | k in rec && (k in keep || rec[k] != Null) :: rec[k]
  }

  /** What an outgoing record built from `input` looks like: the name falls
      back from `Name` to `title_c` to `defaultName`, description and tags
      default to the empty string, and a field that was `null` or
      `undefined` is absent rather than null. */
  ghost predicate Shaped(input: TaskInput, defaultName: string, r: Record) {
    && {"Name", "description_c", "Tags"} <= r.Keys
    && ("title_c" in r <==> input.title.Some?)
    && ("upload_history_c" in r <==> input.attachment.Some?)
    && (Truthy(input.name) ==> r["Name"] == Str(input.name.value))
    && (!Truthy(input.name) && Truthy(input.title) ==> r["Name"] == Str(input.title.value))
    && (!Truthy(input.name) && !Truthy(input.title) ==> r["Name"] == Str(defaultName))
    && (input.title.Some? ==> r["title_c"] == Str(input.title.value))
    && r["description_c"] == Str(input.description.GetOr(""))
    && r["Tags"] == Str(input.tags.GetOr(""))
    && (input.attachment.Some? ==> r["upload_history_c"] == Num(input.attachment.value))
  }

  /** Removing nulls from a record that extends the draft, protecting
      only keys the draft does not have, gives a shaped record. */
  lemma StrippedDraftShaped(input: TaskInput, defaultName: string, rec: Record, keep: set<string>)
    requires forall k :: k in Draft(input, defaultName) ==> k in rec && rec[k] == Draft(input, defaultName)[k]
    requires forall k :: k in keep ==> k !in Draft(input, defaultName)
    ensures Shaped(input, defaultName, StripNulls(rec, keep))
  {
    var d := Draft(input, defaultName);
    assert d.Keys == {"Name", "title_c", "description_c", "Tags", "upload_history_c"};
  }

  /** The record `createTask` sends. */
  function CreateRecord(input: TaskInput): (r: Record)
    ensures Shaped(input, "New Task", r)
    ensures r.Keys <= {"Name", "title_c", "description_c", "Tags", "upload_history_c"}
    ensures Null !in r.Values
  {
    var r := StripNulls(Draft(input, "New Task"), {});
    StrippedDraftShaped(input, "New Task", Draft(input, "New Task"), {});
    assert forall v :: v in r.Values ==> v != Null;
    r
  }

  /** The record `updateTask` sends: the same fields plus `Id`, which the
      null-removal pass never touches. */
  function UpdateRecord(taskId: int, input: TaskInput): (r: Record)
    ensures Shaped(input, "Updated Task", r)
    ensures "Id" in r && r["Id"] == Num(taskId)
    ensures r.Keys <= {"Id", "Name", "title_c", "description_c", "Tags", "upload_history_c"}
    ensures Null !in r.Values
  {
    var d := Draft(input, "Updated Task");
    var rec := d["Id" := Num(taskId)];
    assert d.Keys == {"Name", "title_c", "description_c", "Tags", "upload_history_c"};
    var r := StripNulls(rec, {"Id"});
    StrippedDraftShaped(input, "Updated Task", rec, {"Id"});
    assert forall v :: v in r.Values ==> v != Null;
    r
  }

  /** The fields the null-removal pass is told to keep stay, even when null. */
  lemma StripNullsKeepsProtected(rec: Record, keep: set<string>, k: string)
    requires k in rec && k in keep
    ensures k in StripNulls(rec, keep) && StripNulls(rec, keep)[k] == rec[k]
  {
  }

  // ---------------------------------------------------------------------
  // Replies
  // ---------------------------------------------------------------------

  /** What an SDK call produced: it threw an error, or it returned a reply
      with a top-level `success` flag, a `message` and a body. */
  datatype SdkReply<Body> = Threw(error: string) | Replied(success: bool, message: string, body: Body)

  /** One entry of a batched reply's `results`. */
  datatype ItemResult = ItemResult(success: bool, data: Option<Task>)

  /** A batched reply's body is its optional `results` array. */
  type MutationReply = SdkReply<Option<seq<ItemResult>>>

  predicate Succeeded(item: ItemResult) {
    item.success
  }

  predicate Failed(item: ItemResult) {
    !item.success
  }

  /** `i` is the first successful entry. */
  predicate FirstSuccess(results: seq<ItemResult>, i: int) {
    0 <= i < |results| && results[i].success && forall j :: 0 <= j < i ==> !results[j].success
  }

  /** `getAllTasks`: a failed reply raises its message, a missing or empty
      `data` gives the empty list, anything else is returned as is. */
  function GetAllTasks(reply: SdkReply<Option<seq<Task>>>): (r: Outcome<seq<Task>>)
    ensures r.Raised? <==> reply.Threw? || !reply.success
    ensures reply.Threw? ==> r == Raised(reply.error)
    ensures reply.Replied? && !reply.success ==> r == Raised(reply.message)
    ensures r.Returned? ==> r.value == reply.body.GetOr([])
  {
    match reply
    case Threw(e) => Raised(e)
    case Replied(success, message, data) =>
      if !success then Raised(message)
      else if data.None? || |data.value| == 0 then Returned([])
      else Returned(data.value)
  }

  /** `getTaskById`: never raises. A thrown call, a null reply or a reply
      without `data` all give `null`; the `success` flag is not consulted. */
  function GetTaskById(reply: Option<SdkReply<Option<Task>>>): (r: Option<Task>)
    ensures r.Some? <==> reply.Some? && reply.value.Replied? && reply.value.body.Some?
    ensures r.Some? ==> r == reply.value.body
  {
    match reply
    case None => None
    case Some(Threw(_)) => None
    case Some(Replied(_, _, data)) => if data.None? then None else data
  }

  /** The shared result handling of `createTask` and `updateTask`: a failed
      reply raises its message; per-item failures are tolerated as long as
      one item succeeded, and then the first successful item's data is
      returned; no `results` at all falls off the end and gives `undefined`. */
  function SaveOutcome(reply: MutationReply, failMessage: string): (r: Outcome<Option<Task>>)
    ensures reply.Threw? ==> r == Raised(reply.error)
    ensures reply.Replied? && !reply.success ==> r == Raised(reply.message)
    ensures reply.Replied? && reply.success ==>
      (r.Raised? <==> reply.body.Some? && |reply.body.value| > 0 && forall i :: 0 <= i < |reply.body.value| ==> !reply.body.value[i].success)
    ensures reply.Replied? && reply.success && r.Raised? ==> r.message == failMessage
    ensures reply.Replied? && reply.success && reply.body.Some? ==>
      forall i :: FirstSuccess(reply.body.value, i) ==> r == Returned(reply.body.value[i].data)
    ensures reply.Replied? && reply.success && r.Returned? && r.value.Some? ==>
      reply.body.Some? && exists i :: FirstSuccess(reply.body.value, i) && r.value == reply.body.value[i].data
  {
    match reply
    case Threw(e) => Raised(e)
    case Replied(success, message, results) =>
      if !success then Raised(message)
      else if results.None? then Returned(None)
      else
        var rs := results.value;
        var ok := Filter(rs, Succeeded);
        var failed := Filter(rs, Failed);
        FilterSplitsLength(rs, Succeeded, Failed);
        FilterEmpty(rs, Succeeded);
        assert forall i :: FirstSuccess(rs, i) ==> ok[0] == rs[i] by {
          forall i | FirstSuccess(rs, i) ensures ok[0] == rs[i] {
            FilterHead(rs, Succeeded, i);
          }
        }
        assert |ok| > 0 ==> exists i :: FirstSuccess(rs, i) by {
          if |ok| > 0 {
            FirstSuccessExists(rs);
          }
        }
        if |failed| > 0 && |ok| == 0 then Raised(failMessage)
        else Returned(if |ok| > 0 then ok[0].data else None)
  }

  /** A successful entry implies a first successful entry. */
  lemma {:induction false} FirstSuccessExists(rs: seq<ItemResult>)
    requires exists i :: 0 <= i < |rs| && rs[i].success
    ensures exists i :: FirstSuccess(rs, i)
    decreases |rs|
  {
    if rs[0].success {
      assert FirstSuccess(rs, 0);
    } else {
      FirstSuccessExists(rs[1..]);
      var i :| FirstSuccess(rs[1..], i);
      assert FirstSuccess(rs, i + 1);
    }
  }

  /** `createTask`. */
  function CreateTask(reply: MutationReply): (r: Outcome<Option<Task>>)
    ensures r.Raised? && reply.Replied? && reply.success ==> r.message == "Failed to create task"
    ensures r.Returned? ==> reply.Replied? && reply.success
  {
    SaveOutcome(reply, "Failed to create task")
  }

  /** `updateTask`. */
  function UpdateTask(reply: MutationReply): (r: Outcome<Option<Task>>)
    ensures r.Raised? && reply.Replied? && reply.success ==> r.message == "Failed to update task"
    ensures r.Returned? ==> reply.Replied? && reply.success
  {
    SaveOutcome(reply, "Failed to update task")
  }

  /** `deleteTask`: strict, any failed entry raises; otherwise `true`. */
  function DeleteTask(reply: MutationReply): (r: Outcome<bool>)
    ensures r.Returned? ==> r.value
    ensures r.Returned? <==>
      && reply.Replied? && reply.success
      && (reply.body.None? || forall i :: 0 <= i < |reply.body.value| ==> reply.body.value[i].success)
    ensures reply.Threw? ==> r == Raised(reply.error)
    ensures reply.Replied? && !reply.success ==> r == Raised(reply.message)
    ensures reply.Replied? && reply.success && r.Raised? ==> r.message == "Failed to delete task"
  {
    match reply
    case Threw(e) => Raised(e)
    case Replied(success, message, results) =>
      if !success then Raised(message)
      else if results.None? then Returned(true)
      else
        var failed := Filter(results.value, Failed);
        FilterEmpty(results.value, Failed);
        if |failed| > 0 then Raised("Failed to delete task") else Returned(true)
  }

  /** `deleteTasks`: tolerant, per-item failures never raise; the answer is
      whether as many entries succeeded as ids were requested, and `false`
      when the reply has no `results`. */
  function DeleteTasks(ids: seq<int>, reply: MutationReply): (r: Outcome<bool>)
    ensures r.Raised? <==> reply.Threw? || !reply.success
    ensures reply.Threw? ==> r == Raised(reply.error)
    ensures reply.Replied? && !reply.success ==> r == Raised(reply.message)
    ensures reply.Replied? && reply.success && reply.body.None? ==> r == Returned(false)
    ensures r == Returned(true) ==> reply.body.Some? && |ids| <= |reply.body.value|
    ensures reply.Replied? && reply.success && reply.body.Some? && |reply.body.value| == |ids| ==>
      r == Returned(forall i :: 0 <= i < |ids| ==> reply.body.value[i].success)
    ensures reply.Replied? && reply.success && reply.body.Some? ==>
      r == Returned(|Positions(reply.body.value, Succeeded)| == |ids|)
  {
    match reply
    case Threw(e) => Raised(e)
    case Replied(success, message, results) =>
      if !success then Raised(message)
      else if results.None? then Returned(false)
      else
        FilterFullLength(results.value, Succeeded);
        FilterLengthCountsPositions(results.value, Succeeded);
        Returned(|Filter(results.value, Succeeded)| == |ids|)
  }

  /** Surplus results are compared by count alone: one id with one successful
      and one failed entry answers `true`, and with two successful entries
      answers `false`. */
  lemma DeleteTasksSurplusResults(id: int, t: Option<Task>)
    ensures DeleteTasks([id], Replied(true, "", Some([ItemResult(true, t), ItemResult(false, t)]))) == Returned(true)
    ensures DeleteTasks([id], Replied(true, "", Some([ItemResult(true, t), ItemResult(true, t)]))) == Returned(false)
  {
    var mixed := [ItemResult(true, t), ItemResult(false, t)];
    var both := [ItemResult(true, t), ItemResult(true, t)];
    assert Positions(mixed, Succeeded) == {0};
    assert Positions(both, Succeeded) == {0, 1};
  }

  /** With one entry per requested id, a bulk delete where only some
      succeed reports `false` and does not raise. */
  lemma DeleteTasksPartialFailure(ids: seq<int>, results: seq<ItemResult>, k: nat)
    requires |results| == |ids| && k < |results| && !results[k].success
    ensures DeleteTasks(ids, Replied(true, "", Some(results))) == Returned(false)
  {
  }
}

=== FILE: upload_service.dfy ===
/** The simulated chunked upload and the in-memory upload history
    (src/services/api/uploadService.js). Timers are left out: the clock is a
    parameter, `clock(0)` being the reading taken before the first chunk and
    `clock(k)` the reading taken at the k-th chunk. Byte counts are exact
    reals, so a chunk of `totalSize / 100` bytes is never rounded. */
module UploadService {
  import opened Seqs
  import FileUtils

  // ---------------------------------------------------------------------
  // Chunk arithmetic
  // ---------------------------------------------------------------------

  function Min(a: real, b: real): real {
    if a < b then a else b
  }

  /** `Math.max(totalSize / 100, 1024)`: nominally one hundredth of the
      file, never less than 1 KiB. */
  function ChunkSize(total: nat): (c: real)
    ensures c >= 1024.0 && c >= total as real / 100.0
    ensures c == 1024.0 || c == total as real / 100.0
  {
    if total as real / 100.0 > 1024.0 then total as real / 100.0 else 1024.0
  }

  /** The number of chunks an upload of `total` bytes takes: one hundred
      once a hundredth of the file reaches 1 KiB, otherwise one per started
      KiB. */
  function StepCount(total: nat): nat {
    if total >= 102400 then 100 else (total + 1023) / 1024
  }

  /** After `k` chunks the upload is unfinished exactly when fewer than
      `StepCount(total)` chunks have been sent. */
  lemma ChunksBeforeEnd(total: nat, k: nat)
    requires total > 0
    ensures (k as real * ChunkSize(total) < total as real) <==> k < StepCount(total)
  {
    if total >= 102400 {
      HundredthChunks(total, k);
    } else {
      KibChunks(total, k);
    }
  }

  /** Large files: a hundred chunks of exactly a hundredth each. */
  lemma HundredthChunks(total: nat, k: nat)
    requires total >= 102400
    ensures (k as real * ChunkSize(total) < total as real) <==> k < 100
  {
    var c := ChunkSize(total);
    assert c == total as real / 100.0;
    assert 100.0 * c == total as real;
    if k < 100 {
      ScaleLe(k as real, 99.0, c);
    } else {
      ScaleLe(100.0, k as real, c);
    }
  }

  /** Small files: one chunk per started KiB. */
  lemma KibChunks(total: nat, k: nat)
    requires 0 < total < 102400
    ensures (k as real * ChunkSize(total) < total as real) <==> k < (total + 1023) / 1024
  {
    assert ChunkSize(total) == 1024.0;
    var q := (total + 1023) / 1024;
    assert q * 1024 <= total + 1023 < q * 1024 + 1024;
    assert k as real * 1024.0 == (k * 1024) as real;
  }

  /** Scaling by a non-negative factor keeps the order. */
  lemma ScaleLe(a: real, b: real, c: real)
    requires a <= b && c >= 0.0
    ensures a * c <= b * c
  {
    assert b * c - a * c == (b - a) * c;
  }

  /** Bytes sent after `n` chunks: `n` full chunks, cut off at the file size. */
  function UploadedAfter(total: nat, n: nat): real {
    Min(n as real * ChunkSize(total), total as real)
  }

  lemma UploadedAfterMonotone(total: nat, m: nat, n: nat)
    requires m <= n
    ensures UploadedAfter(total, m) <= UploadedAfter(total, n)
  {
    var c := ChunkSize(total);
    assert m as real * c <= n as real * c by {
      assert (n - m) as real * c >= 0.0;
    }
  }

  // ---------------------------------------------------------------------
  // One chunk
  // ---------------------------------------------------------------------

  /** `Math.min(uploadedSize / totalSize * 100, 100)`. */
  function Percent(uploaded: real, total: nat): (p: real)
    requires total > 0
    ensures p <= 100.0
    ensures uploaded >= 0.0 ==> p >= 0.0
    ensures p == 100.0 <==> uploaded >= total as real
    ensures uploaded < total as real ==> p * total as real == uploaded * 100.0
  {
    var q := uploaded / total as real;
    assert q * total as real == uploaded;
    assert (q * 100.0) * total as real == uploaded * 100.0;
    assert q >= 1.0 <==> uploaded >= total as real by {
      if q >= 1.0 {
        assert q * total as real >= 1.0 * total as real;
      } else {
        assert q * total as real < 1.0 * total as real;
      }
    }
    Min(q * 100.0, 100.0)
  }

  /** Bytes per second over the last interval; 0 when no time has passed
      (or the clock went backwards). */
  function Speed(bytes: real, elapsed: int): (s: real)
    ensures elapsed <= 0 ==> s == 0.0
    ensures elapsed > 0 ==> s * elapsed as real == bytes * 1000.0
  {
    if elapsed > 0 then bytes / elapsed as real * 1000.0 else 0.0
  }

  /** The payload of one `onProgress` callback. */
  datatype ProgressEvent = ProgressEvent(progress: real, uploadedSize: real, totalSize: nat, speed: real)

  /** What one run of the `upload` closure does: the bytes it moves, the
      counter afterwards, and the callback it makes. */
  datatype Tick = Tick(bytes: real, uploaded: real, event: ProgressEvent)

  /** One chunk: move `min(chunkSize, totalSize - uploadedSize)` bytes and
      report. Never overshoots, always makes progress, and only the last
      chunk may be short. */
  function Step(total: nat, uploaded: real, elapsed: int): (t: Tick)
    requires total > 0 && 0.0 <= uploaded < total as real
    ensures 0.0 < t.bytes <= ChunkSize(total)
    ensures t.uploaded == uploaded + t.bytes <= total as real
    ensures t.uploaded < total as real ==> t.bytes == ChunkSize(total)
    ensures t.event.uploadedSize == t.uploaded && t.event.totalSize == total
    ensures t.event.progress == Percent(t.uploaded, total)
    ensures t.event.speed == Speed(t.bytes, elapsed)
  {
    var bytes := Min(ChunkSize(total), total as real - uploaded);
    var next := uploaded + bytes;
    Tick(bytes, next, ProgressEvent(Percent(next, total), next, total, Speed(bytes, elapsed)))
  }

  /** A chunk taken after `k` full chunks leaves the counter at the value
      `k + 1` chunks give. */
  lemma StepFromUploadedAfter(total: nat, k: nat, elapsed: int)
    requires total > 0 && UploadedAfter(total, k) < total as real
    ensures 0.0 <= UploadedAfter(total, k)
    ensures Step(total, UploadedAfter(total, k), elapsed).uploaded == UploadedAfter(total, k + 1)
    ensures UploadedAfter(total, k + 1) < total as real <==> k + 1 < StepCount(total)
  {
    var c := ChunkSize(total);
    var done := k as real * c;
    assert (k + 1) as real * c == done + c;
    ChunksBeforeEnd(total, k + 1);
  }

  /** The whole chain of `upload` calls for a file of `total` bytes: the
      callbacks made and the chunk sizes sent. It stops exactly when the
      counter reaches the file size, after `StepCount(total)` chunks whose
      sizes add up to the file size. */
  method SimulateUpload(total: nat, clock: nat -> int) returns (events: seq<ProgressEvent>, chunks: seq<real>)
    requires total > 0
    ensures |events| == |chunks| == StepCount(total)
    ensures Sum(chunks) == total as real
    ensures Reports(total, clock, events, chunks)
    ensures forall i :: 0 <= i < |events| - 1 ==> events[i].uploadedSize < total as real
    ensures events[|events| - 1].uploadedSize == total as real
    ensures events[|events| - 1].progress == 100.0
  {
    var uploaded: real := 0.0;
    var lastTime := clock(0);
    var k: nat := 0;
    events, chunks := [], [];
    UploadingStart(total, clock);
    while uploaded < total as real
      invariant Uploading(total, clock, k, uploaded, lastTime, events, chunks)
      decreases StepCount(total) - k
    {
      uploaded, lastTime, events, chunks := Advance(total, clock, k, uploaded, lastTime, events, chunks);
      k := k + 1;
    }
    UploadingDone(total, clock, k, uploaded, lastTime, events, chunks);
  }

  /** One run of the `upload` closure: read the clock, send a chunk, report
      it, and remember the reading. */
  method Advance(total: nat, clock: nat -> int, k: nat, uploaded: real, lastTime: int,
                 events: seq<ProgressEvent>, chunks: seq<real>)
    returns (uploaded': real, lastTime': int, events': seq<ProgressEvent>, chunks': seq<real>)
    requires total > 0 && Uploading(total, clock, k, uploaded, lastTime, events, chunks)
    requires uploaded < total as real
    ensures Uploading(total, clock, k + 1, uploaded', lastTime', events', chunks')
  {
    var now := clock(k + 1);
    UploadingStep(total, clock, k, uploaded, lastTime, events, chunks);
    var t := Step(total, uploaded, now - lastTime);
    uploaded', lastTime', events', chunks' := t.uploaded, now, events + [t.event], chunks + [t.bytes];
  }

  /** The state of the chain after `k` chunks: the counter, the last clock
      reading, and the callbacks and chunks so far. */
  ghost predicate Uploading(total: nat, clock: nat -> int, k: nat, uploaded: real, lastTime: int,
                            events: seq<ProgressEvent>, chunks: seq<real>)
    requires total > 0
  {
    && k <= StepCount(total)
    && |events| == k
    && uploaded == UploadedAfter(total, k) && 0.0 <= uploaded
    && (uploaded < total as real <==> k < StepCount(total))
    && Sum(chunks) == uploaded
    && lastTime == clock(k)
    && Reports(total, clock, events, chunks)
  }

  /** Before the first chunk nothing is sent and nothing reported. */
  lemma UploadingStart(total: nat, clock: nat -> int)
    requires total > 0
    ensures Uploading(total, clock, 0, 0.0, clock(0), [], [])
  {
    ChunksBeforeEnd(total, 0);
    assert UploadedAfter(total, 0) == 0.0;
  }

  /** Once the counter reaches the file size, the chain has made exactly
      `StepCount(total)` callbacks, the last one at 100%. */
  lemma UploadingDone(total: nat, clock: nat -> int, k: nat, uploaded: real, lastTime: int,
                      events: seq<ProgressEvent>, chunks: seq<real>)
    requires total > 0 && Uploading(total, clock, k, uploaded, lastTime, events, chunks)
    requires uploaded >= total as real
    ensures |events| == |chunks| == StepCount(total) > 0
    ensures Sum(chunks) == total as real
    ensures forall i :: 0 <= i < |events| - 1 ==> events[i].uploadedSize < total as real
    ensures events[|events| - 1].uploadedSize == total as real
    ensures events[|events| - 1].progress == 100.0
  {
    UploadingStart(total, clock);
    UnfinishedBeforeLast(total);
  }

  /** One run of the closure while the upload is unfinished. */
  lemma UploadingStep(total: nat, clock: nat -> int, k: nat, uploaded: real, lastTime: int,
                      events: seq<ProgressEvent>, chunks: seq<real>)
    requires total > 0 && Uploading(total, clock, k, uploaded, lastTime, events, chunks)
    requires uploaded < total as real
    ensures var t := Step(total, uploaded, clock(k + 1) - lastTime);
      Uploading(total, clock, k + 1, t.uploaded, clock(k + 1), events + [t.event], chunks + [t.bytes])
  {
    StepFromUploadedAfter(total, k, clock(k + 1) - lastTime);
    ReportsStep(total, clock, events, chunks, Step(total, uploaded, clock(k + 1) - lastTime));
  }

  /** `events` are the callbacks for the chunks `chunks`, in order: chunk
      `i` is what the `i + 1`-th chunk adds to the counter, and the `i`-th
      callback reports the bytes `i + 1` chunks give, the file size, the
      matching percentage, and the speed of chunk `i` over the time between
      clock readings `i` and `i + 1`. */
  ghost predicate Reports(total: nat, clock: nat -> int, events: seq<ProgressEvent>, chunks: seq<real>)
    requires total > 0
  {
    && |events| == |chunks|
    && (forall i {:trigger chunks[i]} :: 0 <= i < |chunks| ==> chunks[i] == UploadedAfter(total, i + 1) - UploadedAfter(total, i))
    && (forall i :: 0 <= i < |events| ==> events[i].uploadedSize == UploadedAfter(total, i + 1))
    && (forall i :: 0 <= i < |events| ==>
      && events[i].totalSize == total
      && events[i].progress == Percent(events[i].uploadedSize, total)
      && events[i].speed == Speed(chunks[i], clock(i + 1) - clock(i)))
  }

  /** One more chunk extends the callbacks and the chunk sum. */
  lemma ReportsStep(total: nat, clock: nat -> int, events: seq<ProgressEvent>, chunks: seq<real>, t: Tick)
    requires total > 0 && Reports(total, clock, events, chunks)
    requires 0.0 <= UploadedAfter(total, |events|) < total as real
    requires t == Step(total, UploadedAfter(total, |events|), clock(|events| + 1) - clock(|events|))
    requires t.uploaded == UploadedAfter(total, |events| + 1)
    ensures Reports(total, clock, events + [t.event], chunks + [t.bytes])
    ensures Sum(chunks + [t.bytes]) == Sum(chunks) + t.bytes
  {
    assert (chunks + [t.bytes])[..|chunks|] == chunks;
  }

  /** Fewer chunks than `StepCount(total)` leave the upload unfinished. */
  lemma UnfinishedBeforeLast(total: nat)
    requires total > 0
    ensures forall n: nat :: n < StepCount(total) ==> UploadedAfter(total, n) < total as real
  {
    forall n: nat | n < StepCount(total) ensures UploadedAfter(total, n) < total as real {
      ChunksBeforeEnd(total, n);
    }
  }

  /** Each reported byte count lies between 0 and the file size and never
      goes down from one callback to the next. */
  lemma ReportedSizesMonotone(total: nat, i: nat, j: nat)
    requires i <= j
    ensures 0.0 <= UploadedAfter(total, i) <= UploadedAfter(total, j) <= total as real
  {
    UploadedAfterMonotone(total, i, j);
  }

  /** A 500,000-byte file goes in 100 chunks of 5,000 bytes; a 500-byte
      file in one 1 KiB chunk. */
  lemma StepCountExamples()
    ensures ChunkSize(500000) == 5000.0 && StepCount(500000) == 100
    ensures ChunkSize(500) == 1024.0 && StepCount(500) == 1
  {
  }

  // ---------------------------------------------------------------------
  // Upload history
  // ---------------------------------------------------------------------

  /** A finished upload as kept in the history; `uploadedAt` is the upload
      time in milliseconds since the epoch. */
  datatype UploadRecord = UploadRecord(
    id: int, name: string, size: nat, mimeType: string,
    status: string, shareLink: string, uploadedAt: int)

  /** The history keeps at most this many records. */
  const HistoryLimit: nat := 50

  /** The largest `Id` in a non-empty history. */
  function MaxId(history: seq<UploadRecord>): (m: int)
    requires |history| > 0
    ensures forall r :: r in history ==> r.id <= m
    ensures exists r :: r in history && r.id == m
    decreases |history|
  {
    if |history| == 1 then history[0].id
    else
      var m := MaxId(history[1..]);
      assert forall r :: r in history[1..] ==> r in history;
      if history[0].id > m then history[0].id else m
  }

  /** A number `Math.max` can return over integer `Id`s: an integer, or
      -Infinity, the maximum of no numbers at all. */
  datatype MaxValue = NegInfinity | Finite(n: int)

  /** `Math.max(...ids)`. */
  function JsMax(ids: seq<MaxValue>): (m: MaxValue)
    ensures m == NegInfinity <==> forall i :: 0 <= i < |ids| ==> ids[i] == NegInfinity
    ensures m.Finite? ==> forall i :: 0 <= i < |ids| && ids[i].Finite? ==> ids[i].n <= m.n
    ensures m.Finite? ==> exists i :: 0 <= i < |ids| && ids[i] == m
    decreases |ids|
  {
    if |ids| == 0 then NegInfinity
    else
      var rest := JsMax(ids[1..]);
      assert forall i :: 1 <= i < |ids| ==> ids[i] == ids[1..][i - 1];
      match (ids[0], rest)
      case (NegInfinity, _) => rest
      case (Finite(a), NegInfinity) => ids[0]
      case (Finite(a), Finite(b)) => if a > b then ids[0] else rest
  }

  /** The `Id` of a new record as the source computes it,
      `Math.max(...uploadHistory.map(u => u.Id)) + 1`: -Infinity stays
      -Infinity when one is added. */
  function NextIdAsWritten(ids: seq<MaxValue>): (v: MaxValue)
    ensures v == NegInfinity <==> forall i :: 0 <= i < |ids| ==> ids[i] == NegInfinity
    ensures v.Finite? ==> forall i :: 0 <= i < |ids| && ids[i].Finite? ==> ids[i].n < v.n
  {
    match JsMax(ids)
    case NegInfinity => NegInfinity
    case Finite(m) => Finite(m + 1)
  }

  /** As written, the first upload after `clearHistory` gets the `Id`
      -Infinity, and the next upload gets -Infinity again: two records of
      the history then share an `Id`. */
  lemma NextIdAsWrittenRepeats()
    ensures NextIdAsWritten([]) == NegInfinity
    ensures NextIdAsWritten([NextIdAsWritten([])]) == NegInfinity
  {
  }

  /** Ids as the source sees them. */
  function IdValues(history: seq<UploadRecord>): (ids: seq<MaxValue>)
    ensures |ids| == |history|
    ensures forall i :: 0 <= i < |history| ==> ids[i] == Finite(history[i].id)
  {
    seq(|history|, i requires 0 <= i < |history| => Finite(history[i].id))
  }

  /** The next `Id`: one more than the largest, and 1 for an empty history. */
  function NextId(history: seq<UploadRecord>): (id: int)
    ensures forall r :: r in history ==> r.id < id
    ensures |history| == 0 ==> id == 1
    ensures |history| > 0 ==> exists r :: r in history && r.id == id - 1
  {
    if |history| == 0 then 1 else MaxId(history) + 1
  }

  /** On a non-empty history the corrected `Id` is the one the source computes. */
  lemma NextIdAgreesWhenNonEmpty(history: seq<UploadRecord>)
    requires |history| > 0
    ensures NextIdAsWritten(IdValues(history)) == Finite(NextId(history))
  {
    var ids := IdValues(history);
    var m := JsMax(ids);
    assert ids[0] == Finite(history[0].id);
    var i :| 0 <= i < |ids| && ids[i] == m;
    assert history[i] in history;
    forall r | r in history ensures r.id <= m.n {
      var j :| 0 <= j < |history| && history[j] == r;
      assert ids[j] == Finite(r.id);
    }
  }

  datatype Completion = Completion(record: UploadRecord, history: seq<UploadRecord>)

  /** `unshift` followed by the cap: `record` in front, then as many of the
      old records, in order, as fit under the limit. */
  function Push(history: seq<UploadRecord>, record: UploadRecord): (r: seq<UploadRecord>)
    ensures |r| == if |history| < HistoryLimit then |history| + 1 else HistoryLimit
    ensures r[0] == record
    ensures forall j :: 1 <= j < |r| ==> r[j] == history[j - 1]
  {
    var h := [record] + history;
    if |h| > HistoryLimit then h[..HistoryLimit] else h
  }

  /** What the last chunk does: build the record with the next `Id`, put it
      in front of the history and drop whatever lies beyond the fiftieth
      entry. */
  function Complete(history: seq<UploadRecord>, file: FileUtils.File, fileId: string, now: int): (c: Completion)
    ensures c.record.name == file.name && c.record.size == file.size && c.record.mimeType == file.mimeType
    ensures c.record.status == "completed" && c.record.uploadedAt == now
    ensures c.record.shareLink == FileUtils.ShareLink(fileId)
    ensures forall r :: r in history ==> r.id < c.record.id
    ensures |history| == 0 ==> c.record.id == 1
    ensures |history| > 0 ==> exists r :: r in history && r.id == c.record.id - 1
    ensures c.history == Push(history, c.record)
  {
    var record := UploadRecord(NextId(history), file.name, file.size, file.mimeType,
                               "completed", FileUtils.ShareLink(fileId), now);
    Completion(record, Push(history, record))
  }

  /** No two records share an `Id`. */
  ghost predicate UniqueIds(history: seq<UploadRecord>) {
    forall i, j :: 0 <= i < j < |history| ==> history[i].id != history[j].id
  }

  /** Newest first: upload times never increase along the list. */
  ghost predicate NewestFirst(history: seq<UploadRecord>) {
    forall i, j :: 0 <= i < j < |history| ==> history[i].uploadedAt >= history[j].uploadedAt
  }

  /** Pushing a record whose `Id` is new keeps the `Id`s unique. */
  lemma PushKeepsIdsUnique(history: seq<UploadRecord>, record: UploadRecord)
    requires UniqueIds(history)
    requires forall r :: r in history ==> r.id != record.id
    ensures UniqueIds(Push(history, record))
  {
    var h := Push(history, record);
    forall i, j | 0 <= i < j < |h| ensures h[i].id != h[j].id {
      assert history[j - 1] in history;
    }
  }

  /** Pushing a record no older than every other keeps the list newest first. */
  lemma PushKeepsNewestFirst(history: seq<UploadRecord>, record: UploadRecord)
    requires NewestFirst(history)
    requires forall r :: r in history ==> r.uploadedAt <= record.uploadedAt
    ensures NewestFirst(Push(history, record))
  {
    var h := Push(history, record);
    forall i, j | 0 <= i < j < |h| ensures h[i].uploadedAt >= h[j].uploadedAt {
      assert history[j - 1] in history;
    }
  }

  /** Completing an upload keeps the `Id`s unique. */
  lemma CompleteKeepsIdsUnique(history: seq<UploadRecord>, file: FileUtils.File, fileId: string, now: int)
    requires UniqueIds(history)
    ensures UniqueIds(Complete(history, file, fileId, now).history)
  {
    var c := Complete(history, file, fileId, now);
    PushKeepsIdsUnique(history, c.record);
  }

  /** Completing an upload at a time no earlier than every recorded upload
      keeps the history newest first. */
  lemma CompleteKeepsNewestFirst(history: seq<UploadRecord>, file: FileUtils.File, fileId: string, now: int)
    requires NewestFirst(history)
    requires forall r :: r in history ==> r.uploadedAt <= now
    ensures NewestFirst(Complete(history, file, fileId, now).history)
  {
    var c := Complete(history, file, fileId, now);
    PushKeepsNewestFirst(history, c.record);
  }

  /** Stable insertion of `x` in front of every record no newer than it. */
  function InsertByDate(x: UploadRecord, history: seq<UploadRecord>): (r: seq<UploadRecord>)
    requires NewestFirst(history)
    ensures NewestFirst(r)
    ensures multiset(r) == multiset(history) + multiset{x}
    ensures |r| == |history| + 1
    ensures r[0] == x || (|history| > 0 && r[0] == history[0])
    decreases |history|
  {
    if |history| == 0 || history[0].uploadedAt <= x.uploadedAt then
      [x] + history
    else
      var rest := InsertByDate(x, history[1..]);
      assert history == [history[0]] + history[1..];
      [history[0]] + rest
  }

  /** `getUploadHistory`: a copy of the store ordered newest first; the
      store itself is a value and so cannot change. */
  function GetUploadHistory(history: seq<UploadRecord>): (r: seq<UploadRecord>)
    ensures NewestFirst(r)
    ensures multiset(r) == multiset(history)
    decreases |history|
  {
    if |history| == 0 then []
    else
      assert history == [history[0]] + history[1..];
      InsertByDate(history[0], GetUploadHistory(history[1..]))
  }

  /** A history that is already newest first comes back unchanged. */
  lemma {:induction false} GetUploadHistorySorted(history: seq<UploadRecord>)
    requires NewestFirst(history)
    ensures GetUploadHistory(history) == history
    decreases |history|
  {
    if |history| > 0 {
      GetUploadHistorySorted(history[1..]);
      assert history == [history[0]] + history[1..];
    }
  }

  /** `deleteUpload`: drop the records with this `Id`, keep the others in order. */
  function DeleteUpload(history: seq<UploadRecord>, id: int): (r: seq<UploadRecord>)
    ensures forall x :: x in r <==> x in history && x.id != id
    ensures SubsequenceOf(r, history)
    ensures forall x :: multiset(r)[x] == if x.id != id then multiset(history)[x] else 0
    ensures (forall x :: x in history ==> x.id != id) ==> r == history
  {
    var keep := (x: UploadRecord) => x.id != id;
    FilterKeepsAll(history, keep);
    FilterKeepsOrder(history, keep);
    FilterCounts(history, keep);
    Filter(history, keep)
  }

  /** Deleting keeps the history newest first and its `Id`s unique. */
  lemma DeleteUploadKeepsInvariants(history: seq<UploadRecord>, id: int)
    requires NewestFirst(history) && UniqueIds(history)
    ensures NewestFirst(DeleteUpload(history, id)) && UniqueIds(DeleteUpload(history, id))
  {
    SubsequenceKeepsNewestFirst(DeleteUpload(history, id), history);
    SubsequenceKeepsIdsUnique(DeleteUpload(history, id), history);
  }

  /** Leaving records out of a newest-first list keeps it newest first. */
  lemma SubsequenceKeepsNewestFirst(r: seq<UploadRecord>, history: seq<UploadRecord>)
    requires SubsequenceOf(r, history) && NewestFirst(history)
    ensures NewestFirst(r)
  {
    var idx :| PicksAt(r, history, idx);
    forall i, j | 0 <= i < j < |r| ensures r[i].uploadedAt >= r[j].uploadedAt {
      assert idx[i] < idx[j];
    }
  }

  /** Leaving records out of a list with unique `Id`s keeps them unique. */
  lemma SubsequenceKeepsIdsUnique(r: seq<UploadRecord>, history: seq<UploadRecord>)
    requires SubsequenceOf(r, history) && UniqueIds(history)
    ensures UniqueIds(r)
  {
    var idx :| PicksAt(r, history, idx);
    forall i, j | 0 <= i < j < |r| ensures r[i].id != r[j].id {
      assert idx[i] < idx[j];
    }
  }

  /** `clearHistory`. */
  function ClearHistory(): (r: seq<UploadRecord>)
    ensures |r| == 0
  {
    []
  }

  /** Once cleared, listing the history yields nothing and every `Id` is gone. */
  lemma ClearHistoryEmptiesStore(id: int)
    ensures GetUploadHistory(ClearHistory()) == []
    ensures DeleteUpload(ClearHistory(), id) == []
  {
  }

  /** With the corrected `Id`, two uploads after clearing the history get
      the `Id`s 1 and 2, and the history keeps its `Id`s unique. */
  lemma ClearThenTwoUploads(a: FileUtils.File, b: FileUtils.File, idA: string, idB: string, t1: int, t2: int)
    ensures var first := Complete(ClearHistory(), a, idA, t1);
            var second := Complete(first.history, b, idB, t2);
            && first.record.id == 1 && second.record.id == 2
            && UniqueIds(second.history)
  {
    var first := Complete(ClearHistory(), a, idA, t1);
    CompleteKeepsIdsUnique(ClearHistory(), a, idA, t1);
    CompleteKeepsIdsUnique(first.history, b, idB, t2);
  }
}

=== FILE: wrappers.dfy ===
/** Result shapes shared by the whole model: JavaScript's `null`/`undefined`
    become `None`, and an `async` call either resolves (`Returned`) or throws
    an `Error` carrying a message (`Raised`). */
module Wrappers {

  datatype Option<+T> = None | Some(value: T) {

    /** The value, or the given default when absent (JavaScript `x ?? d`). */
    function GetOr(default: T): T {
      match this
      case Some(v) => v
      case None => default
    }
  }

  /** Outcome of a call that may throw. */
  datatype Outcome<+T> = Returned(value: T) | Raised(message: string)
}
